=== FILE: README.md ===
# Invoice parser model

A Dafny model of `InvoiceParser` from `src/lib/invoiceParser.ts`. The parser
reads one order-confirmation page and returns an `OrderDetail`, or throws an
`InvoiceParserError` on the first problem it finds. An `OrderDetail` holds:

- the date and the payment method;
- five totals (subtotal, tax, total before tax, grand total, shipping & handling);
- the discounts;
- the purchased items;
- the shipping-address lines.

The model takes the page as an `InvoiceDocument`. This value holds what the
DOM queries would find:

- the line-item rows, each with an optional label text and an optional content text;
- the optional text of the order-date, payment-method and shipping-address elements;
- the purchased-item blocks, each with optional title, seller, supplier, price and quantity texts.

`None` means "element not found"; `Some(t)` is the element's `textContent`.
Every step is a pure function returning `Result<_, ParseError>`. `ParseError`
has one constructor per `throw` in the source.

Modules, one per file:

- `Wrappers` (`wrappers.dfy`): `Option`, `Result` and `Outcome`.
- `JsText` (`js_text.dfy`): the JavaScript string built-ins the parser uses.
  These are `trim`, `replace(/\s+/g, ' ')`, `replace(/^prefix\s*/, '')`,
  `split('\n')` and ECMAScript white space.
- `JsNumbers` (`js_numbers.dfy`): `parseFloat` and `parseInt` (radix 10) on
  exact numbers, plus the number printing used by the round-trip lemmas.
- `Order` (`order.dfy`): the `OrderDetail` and `ItemDetail` shapes,
  `schemaVersion`, `Currency.USD` and the error constructors.
- `Amounts` (`amounts.dfy`): `parseAmounts`, `getAmount` and `validateNonNegative`.
- `Fields` (`fields.dfy`): `parseOrderDate`, `parsePaymentMethod` and `parseShippingAddress`.
- `Items` (`items.dfy`): `parseItems`.
- `InvoiceParser` (`invoice_parser.dfy`): `parseInvoice`. It looks up the five
  totals and checks them, then reads the date, payment method, items and
  address, in the order the result object lists them.

Money is Dafny `real`, so it is exact. The totals tolerance is exactly 0.01.

Some behaviour of the code is worth stating plainly:

- Totals are compared with a tolerance (`> 0.01`), not by exact equality.
- Money is a JavaScript number, not an integer count of cents.
- A repeated label overwrites the earlier value, so the last one wins. A repeated label is not an error.
- Items carry no shipment status, and nothing compares a count of items with anything else.
- No check compares the item prices with the subtotal.
- Amount text is read by `parseFloat`, so `"12"` and `"12.3"` are accepted and trailing text is ignored.
- The quantity is whatever `parseInt` reads, so `"0"`, `"-2"` and `"2.5"` are
  all accepted (the last reads as 2).
- The totals are checked before the date, payment method, items and address
  are read.

## Model

| member | source | states |
|---|---|---|
| `JsText.Trim` | src/lib/invoiceParser.ts:72-73 | the result is the text between a white-space run at the start and one at the end, and has no white space at either end. It is empty exactly when the text is all white space, and text already trimmed is returned unchanged |
| `JsText.TrimOf` | src/lib/invoiceParser.ts:72-73 | any cut of white space off both ends that leaves a trimmed text is what `trim` returns |
| `JsText.TrimWords` | src/lib/invoiceParser.ts:127 | trimming keeps the words (the maximal runs of non-space characters) |
| `JsText.TrimVisible` | src/lib/invoiceParser.ts:72-73 | trimming removes white space only: the visible characters of the result are those of the text, in order |
| `JsText.TrimCollapsed` | src/lib/invoiceParser.ts:166-169 | trimming a collapsed text leaves it collapsed, so the merchant clean-up keeps single plain spaces |
| `JsText.CollapseSpaces` | src/lib/invoiceParser.ts:131 | the result has the same words as the text, in order; its only white space is plain spaces, never two in a row; it is empty only for an empty text; its first and last characters are those of the text, with white space turned into a space. Together these fix the result: one space wherever the text has a white-space run |
| `JsText.CollapseVisible` | src/lib/invoiceParser.ts:131 | collapsing keeps every visible character, in order |
| `JsText.CollapsedUnchanged` | src/lib/invoiceParser.ts:131 | collapsing is the identity on collapsed text, so it is idempotent |
| `JsText.StripPrefixCollapsed` | src/lib/invoiceParser.ts:167 | on normalised text, removing a prefix and the white space after it leaves normalised text; the prefix plus at most one space restores the original |
| `JsText.StripPrefix` | src/lib/invoiceParser.ts:167-169 | with the prefix present, the result is what follows the prefix after the white space there, starting with a non-space character; otherwise the text is unchanged |
| `JsText.Split` | src/lib/invoiceParser.ts:143 | `split` yields at least one part, no part holds the separator, and joining the parts gives back the text |
| `JsText.SplitJoin` | src/lib/invoiceParser.ts:143 | splitting a join of separator-free parts returns those parts |
| `JsNumbers.ParseFloat` | src/lib/invoiceParser.ts:75 | `parseFloat` is NaN exactly when, after leading white space and one sign, the text starts with neither a digit nor a point followed by a digit |
| `JsNumbers.ParseFloatRoundTrip` | src/lib/invoiceParser.ts:174 | a price printed as sign, whole number, point and two cent digits reads back as its exact value. This holds whatever follows, unless it starts with a digit or an exponent mark |
| `JsNumbers.SignedLiteral` | src/lib/invoiceParser.ts:75 | `parseFloat` reads an optional minus, whole digits, a point and any number of fraction digits as their exact value, sign included. This holds whatever follows, unless it starts with a digit or an exponent mark |
| `JsNumbers.ParseFloatWhole` | src/lib/invoiceParser.ts:75 | `parseFloat` reads an optional minus and a run of digits with no point as that whole number, sign included. This holds whatever follows, unless it starts with a digit, a point or an exponent mark |
| `JsNumbers.ParseInt` | src/lib/invoiceParser.ts:182 | `parseInt` is NaN exactly when no digit follows the leading white space and sign |
| `JsNumbers.ParseIntRoundTrip` | src/lib/invoiceParser.ts:182 | a printed integer followed by a non-digit reads back as itself |
| `JsNumbers.ParseIntWhole` | src/lib/invoiceParser.ts:182 | an optional `+` or `-` and a run of digits, leading zeros included, read as that integer (negated after `-`), whatever non-digit text follows |
| `JsNumbers.ParseIntAfterSpaces` | src/lib/invoiceParser.ts:182 | white space in front of the text does not change what `parseInt` reads |
| `JsNumbers.ParseFloatAfterSpaces` | src/lib/invoiceParser.ts:75 | white space in front of the text does not change what `parseFloat` reads, so `$ 5.00` reads as `5.00` once stripped |
| `Amounts.StripCurrency` | src/lib/invoiceParser.ts:75 | the result holds no `$` or `,`, and is shorter than the text by exactly the number of `$` and `,` in it |
| `Amounts.CurrencyMarksCount` | src/lib/invoiceParser.ts:75 | the count of characters removed is the number of occurrences of `$` plus those of `,` |
| `Amounts.StripCurrencyAppend` | src/lib/invoiceParser.ts:75 | stripping works character by character, so the characters kept keep their order |
| `Amounts.StripCurrencyUnchanged` | src/lib/invoiceParser.ts:75 | text without `$` and `,` is kept whole |
| `Amounts.ParseMoney` | src/lib/invoiceParser.ts:75 | money text without `$` and `,` reads as `parseFloat` reads it |
| `Amounts.ParseMoneyRoundTrip` | src/lib/invoiceParser.ts:75 | a dollar amount printed with `$`, whole dollars and two cent digits reads back as its value, negative amounts included |
| `Amounts.StripGrouped` | src/lib/invoiceParser.ts:75 | stripping removes the thousands separators from grouped digits, giving back the plain digits |
| `Amounts.GroupedMoneyRoundTrip` | src/lib/invoiceParser.ts:75 | a dollar amount printed with `$` and a comma between every three whole-dollar digits (`$1,234.56`) reads back as its value, negative amounts included |
| `Amounts.UseOf` | src/lib/invoiceParser.ts:69-84 | a row is used exactly when both elements are present, neither trimmed text is empty, and the content parses as a number; a used row is either a non-negative amount or a negative discount. Its key is the trimmed label and its value is the number read from the trimmed content |
| `Amounts.PrintedPriceRow` | src/lib/invoiceParser.ts:77-83 | a row printing a negative price becomes a discount, and any other price becomes an amount, with the printed value |
| `Amounts.ParseAmounts` | src/lib/invoiceParser.ts:63-90 | no value in the amounts map is negative, and every discount is negative |
| `Amounts.DiscountsInRowOrder` | src/lib/invoiceParser.ts:79 | the discounts are exactly the negative rows, in row order |
| `Amounts.AmountKeys` | src/lib/invoiceParser.ts:71-82 | a label is in the map exactly when some row stores a non-negative amount under it |
| `Amounts.LastAmountWins` | src/lib/invoiceParser.ts:82 | with repeated labels, the map holds the value of the last row carrying the label |
| `Amounts.GetAmount` | src/lib/invoiceParser.ts:92-98 | the lookup succeeds exactly when the label is in the map, returns the mapped value, and otherwise fails naming the label |
| `Amounts.ValidateNonNegative` | src/lib/invoiceParser.ts:100-104 | the check passes exactly for non-negative amounts, and otherwise fails with the label and the amount |
| `Fields.ParseOrderDate` | src/lib/invoiceParser.ts:106-120 | each of the three errors occurs exactly in its case: missing element, blank text, or a trimmed text the date reader rejects with ` UTC` appended. Otherwise the result is the date read from that text |
| `Fields.ParsePaymentMethod` | src/lib/invoiceParser.ts:122-132 | it fails exactly for a missing element or blank text, with the matching error. Otherwise the result is non-empty, trimmed, collapsed, and has the element's words, so it is those words with one space between each two |
| `Fields.PaymentMethodRoundTrip` | src/lib/invoiceParser.ts:131 | normalised payment text reads back unchanged |
| `Fields.KeepLines` | src/lib/invoiceParser.ts:145 | the result holds only kept lines taken from the input, and every kept input line appears in it |
| `Fields.KeepLinesAppend` | src/lib/invoiceParser.ts:145 | the filter keeps the original order: filtering a concatenation concatenates the filtered parts |
| `Fields.ParseShippingAddress` | src/lib/invoiceParser.ts:134-150 | a missing element and blank text fail with their own errors. Otherwise the result is the text's address lines — its lines, each trimmed, without blank lines and `Ship to`, in order — and `NoShippingAddressLines` exactly when there are none. A success is a non-empty list of non-empty, trimmed lines holding no line feed |
| `Fields.AddressLinesOfTrim` | src/lib/invoiceParser.ts:139-145 | trimming the whole text before splitting changes no address line |
| `Fields.ShippingAddressOfLines` | src/lib/invoiceParser.ts:134-150 | for any text given as its lines, the parse is not-found for blank text, no-lines when no line survives trimming and filtering, and otherwise the surviving lines in order |
| `Fields.ShippingAddressRoundTrip` | src/lib/invoiceParser.ts:143-149 | address lines joined with line feeds read back as the same lines |
| `Items.MerchantName` | src/lib/invoiceParser.ts:166-169 | the cleaned name is trimmed and collapsed. The normalised text is the name, or the prefix followed by the name with at most one space between |
| `Items.MerchantNameRoundTrip` | src/lib/invoiceParser.ts:166-169 | `Sold by: NAME` style text reads back as `NAME` |
| `Items.OptionalMerchant` | src/lib/invoiceParser.ts:192-197 | seller and supplier are set exactly when the element exists and its cleaned name is not empty |
| `Items.ParseDescription` | src/lib/invoiceParser.ts:162-165 | the description is the trimmed title and fails exactly when the title is missing or blank |
| `Items.ParsePrice` | src/lib/invoiceParser.ts:170-177 | a missing or blank price fails as not found. An unreadable one fails as unparseable, carrying the trimmed text. Otherwise the price is the number read after removing `$` and `,` |
| `Items.PriceRoundTrip` | src/lib/invoiceParser.ts:170-177 | a printed dollar price reads back as its value |
| `Items.ParseQuantity` | src/lib/invoiceParser.ts:178-186 | the quantity is 1 for a missing or blank text; otherwise it is the integer `parseInt` reads, or an error carrying the trimmed text |
| `Items.QuantityRoundTrip` | src/lib/invoiceParser.ts:178-186 | a printed quantity reads back as itself |
| `Items.ParseItem` | src/lib/invoiceParser.ts:157-198 | description, price and quantity are checked in that order, and the first failure is the error. A success combines the description, price, quantity and optional merchants |
| `Items.ItemRoundTrip` | src/lib/invoiceParser.ts:157-198 | a block printed from an item (title, prefixed seller and supplier lines, price text, quantity) reads back as that item |
| `Items.Gather` | src/lib/invoiceParser.ts:156-199 | the loop succeeds exactly when every block does, giving one result per block in order. Otherwise its error is the earliest block failure |
| `Items.ParseItems` | src/lib/invoiceParser.ts:152-201 | one item per block, in block order, each the block's own parse. Any failing block fails the whole list, with the first failing block's error |
| `InvoiceParser.LookupAll` | src/lib/invoiceParser.ts:92-98 | looking up labels in turn succeeds exactly when all are present, giving their values in order; otherwise it fails with the first missing label |
| `InvoiceParser.LookupTotals` | src/lib/invoiceParser.ts:17-21 | the five totals are the mapped values of their labels. A failure names the first missing label, in lookup order |
| `InvoiceParser.MissingLabelFails` | src/lib/invoiceParser.ts:17-21 | if no row supplies a required label but every earlier one is supplied, parsing fails naming that label, whatever else the page holds |
| `InvoiceParser.ValidateTotals` | src/lib/invoiceParser.ts:24-28 | the sign checks pass exactly when all five totals are non-negative. Otherwise the failure names the first negative total in lookup order (subtotal, tax, pre-tax total, grand total, shipping) with its amount |
| `InvoiceParser.NeverNegativeAmount` | src/lib/invoiceParser.ts:100-104 | parsing never fails with the negative-amount error, so the sign checks are unreachable |
| `InvoiceParser.DiscountSum` | src/lib/invoiceParser.ts:31 | the sum of a single discount is its amount. The sum of negative discounts is at most zero, and below zero when there is any discount |
| `InvoiceParser.DiscountSumAppend` | src/lib/invoiceParser.ts:31 | the discount sum of a concatenation is the sum of the parts' sums |
| `InvoiceParser.CheckTotals` | src/lib/invoiceParser.ts:31-45 | the checks pass exactly when both totals agree with their recomputed values to within 0.01. The pre-tax mismatch is reported first, then the grand-total one, each with the expected and actual values |
| `InvoiceParser.PrintedTotalsCheck` | src/lib/invoiceParser.ts:31-45 | a page printing whole-cent totals passes exactly when each total is within one cent of its parts, and then reads back as those totals. Otherwise the pre-tax mismatch is reported |
| `InvoiceParser.ParseTotals` | src/lib/invoiceParser.ts:14-45 | a failed lookup is the result. After a successful lookup, the looked-up totals are the result when the sum checks pass, and the failing check's error otherwise; the sign checks never decide it |
| `InvoiceParser.ParseInvoice` | src/lib/invoiceParser.ts:13-61 | the whole page parses exactly when every step does. Errors come in this order: totals, then date, payment method, items and address. A success carries the schema version, USD and each step's result |
| `InvoiceParser.InvoiceConsistent` | src/lib/invoiceParser.ts:31-59 | a parsed order's totals agree with their parts to within 0.01, and no total is negative. The discounts are the negative rows in order, so the pre-tax total is at most subtotal plus shipping plus 0.01. There is one item per block and at least one address line |

## Left out

- DOM querying (`querySelector`, `querySelectorAll`, `textContent`): the page is given as the texts those queries would return.
- `new Date(text + " UTC")`: `ParseOrderDate` takes the date reader as a parameter, mapping a text to milliseconds or to `None` for an invalid date.
- Error messages: each error keeps the values its message interpolates. The `toFixed(2)` formatting of the message is not modelled.
- `JsNumbers.ParseFloat`: reads numbers exactly, with no rounding to a 64-bit float, and reads the `Infinity` literal as NaN, because `real` has no infinity.
- `JsNumbers.ParseFloat`: values are stated by lemma for an optional minus followed by a fixed-point form (a trailing point such as `12.` included) or by a whole number, with any leading white space. A leading `+`, exponent forms (`1e3`) and a leading point (`.5`) follow the definition but have no lemma of their own, because prices are never printed that way.
- `Amounts.ParseMoney`: values are stated by lemma for prices printed with two cent digits, with or without thousands separators. Commas elsewhere are stripped all the same, as `StripCurrency` states, but no value lemma covers them.
- `InvoiceParser.CheckTotals`: compares exact sums with 0.01. The source compares floating-point sums, whose rounding can move a borderline case either way.
- `JsNumbers.ParseInt`: unbounded integers, with no loss of precision for very long digit runs.
- `Items.ItemRoundTrip`: the price is any text `ParsePrice` reads. `Items.PriceRoundTrip` covers printed dollar prices separately.
- `InvoiceParser.PrintedTotalsCheck`: covers pages with exactly the five required rows and no discount rows.
- The optional `finalized` field of `OrderDetail` (src/index.ts:52): `parseInvoice` never sets it, so the model's order record has no such field. The delivery dates of `ItemDetail` are commented out in src/index.ts:61-63 and are not modelled either.
- `src/lib/amazonOrders.ts`, `src/lib/httpFetcher.ts`, `src/lib/rateLimiter.ts`, `src/bin/parse-invoice.ts` and `tools/clean_invoice.py` are not part of this model. They are network stubs, timers, command-line I/O and HTML clean-up, outside the parser.

=== FILE: amounts.dfy ===
/** `parseAmounts`, `getAmount` and `validateNonNegative`: reading the labelled
    money rows of the order summary into an amounts map and a discounts list. */
module Amounts {
  import opened Wrappers
  import opened JsText
  import opened JsNumbers
  import opened Order

  /** A `.od-line-item-row`: the text of its label element and of its content
      element, `None` where the row has no such element. */
  datatype Row = Row(labelText: Option<string>, contentText: Option<string>)

  /** Where one row ends up. */
  datatype RowUse = Unused | Amount(key: string, value: real) | Discounted(discount: Discount)

  /** What `parseAmounts` returns: the amounts map and the discounts in row order. */
  datatype Extracted = Extracted(amounts: map<string, real>, discounts: seq<Discount>)

  function StripCurrencyChar(c: char): string {
    if c == '$' || c == ',' then [] else [c]
  }

  /** How many dollar signs and commas `s` holds. */
  function CurrencyMarks(s: string): nat {
    if |s| == 0 then 0 else (if s[0] == '$' || s[0] == ',' then 1 else 0) + CurrencyMarks(s[1..])
  }

  /** `replace(/[$,]/g, '')`: drops every dollar sign and comma. */
  function StripCurrency(s: string): (r: string)
    ensures '$' !in r && ',' !in r
    ensures |r| == |s| - CurrencyMarks(s)
  {
    if |s| == 0 then [] else StripCurrencyChar(s[0]) + StripCurrency(s[1..])
  }

  /** `CurrencyMarks` counts the occurrences of `$` and `,`. */
  lemma {:induction false} CurrencyMarksCount(s: string)
    ensures CurrencyMarks(s) == multiset(s)['$'] + multiset(s)[',']
    decreases |s|
  {
    if |s| > 0 {
      assert s == [s[0]] + s[1..];
      CurrencyMarksCount(s[1..]);
    }
  }

  /** Stripping works character by character, so it distributes over concatenation. */
  lemma {:induction false} StripCurrencyAppend(a: string, b: string)
    ensures StripCurrency(a + b) == StripCurrency(a) + StripCurrency(b)
    decreases |a|
  {
    if |a| == 0 {
      assert a + b == b;
    } else {
      assert (a + b)[1..] == a[1..] + b;
      StripCurrencyAppend(a[1..], b);
    }
  }

  /** Text without dollar signs or commas is left as it is. */
  lemma {:induction false} StripCurrencyUnchanged(s: string)
    requires '$' !in s && ',' !in s
    ensures StripCurrency(s) == s
    decreases |s|
  {
    if |s| > 0 {
      StripCurrencyUnchanged(s[1..]);
      assert [s[0]] + s[1..] == s;
    }
  }

  /** The number a money text holds: `parseFloat` after stripping `$` and `,`.
      `None` stands for `NaN`. */
  function ParseMoney(text: string): (r: Option<real>)
    ensures '$' !in text && ',' !in text ==> r == ParseFloat(text)
  {
    PlainMoneyText(text);
    ParseFloat(StripCurrency(text))
  }

  lemma PlainMoneyText(text: string)
    ensures '$' !in text && ',' !in text ==> StripCurrency(text) == text
  {
    if '$' !in text && ',' !in text {
      StripCurrencyUnchanged(text);
    }
  }

  /** A price as the order page prints it: an optional minus, a dollar sign,
      whole dollars, a point and two cent digits. */
  function DollarText(cents: int): string {
    var m := Magnitude(cents);
    MinusIf(cents < 0) + "$" + (NatToString(m / 100) + "." + CentDigits(m))
  }

  /** A printed price reads back as exactly its value. */
  lemma ParseMoneyRoundTrip(cents: int)
    ensures ParseMoney(DollarText(cents)) == Some(cents as real / 100.0)
  {
    StrippedDollarText(cents);
    ParseFloatRoundTrip(cents, []);
  }

  /** Stripping a printed price leaves the bare number `parseFloat` reads. */
  lemma StrippedDollarText(cents: int)
    ensures StripCurrency(DollarText(cents)) == CentsToString(cents) + []
  {
    var m := Magnitude(cents);
    var sign := MinusIf(cents < 0);
    var body := NatToString(m / 100) + "." + CentDigits(m);
    assert '$' !in body && ',' !in body by {
      assert forall i | 0 <= i < |body| :: IsDigit(body[i]) || body[i] == '.';
    }
    StripCurrencyAppend(sign + "$", body);
    StripCurrencyAppend(sign, "$");
    StripCurrencyUnchanged(sign);
    StripCurrencyUnchanged(body);
    assert StripCurrency("$") == [];
    assert StripCurrency(DollarText(cents)) == CentsToString(cents);
  }

  /** Digits with a thousands separator: a comma before every group of three
      digits, counted from the right. */
  function Grouped(ds: string): string
    decreases |ds|
  {
    if |ds| <= 3 then ds else Grouped(ds[..|ds| - 3]) + "," + ds[|ds| - 3..]
  }

  /** Stripping takes the thousands separators out again. */
  lemma {:induction false} StripGrouped(ds: string)
    requires '$' !in ds && ',' !in ds
    ensures StripCurrency(Grouped(ds)) == ds
    decreases |ds|
  {
    if |ds| <= 3 {
      StripCurrencyUnchanged(ds);
    } else {
      var high := ds[..|ds| - 3];
      var low := ds[|ds| - 3..];
      var g := Grouped(high);
      assert ds == high + low;
      StripGrouped(high);
      calc {
        StripCurrency(Grouped(ds));
        StripCurrency(g + "," + low);
        { StripCurrencyAppend(g + ",", low); }
        StripCurrency(g + ",") + StripCurrency(low);
        { StripCurrencyAppend(g, ","); StripCurrencyUnchanged(low); }
        StripCurrency(g) + StripCurrency(",") + low;
        { assert StripCurrency(",") == []; }
        high + [] + low;
      }
    }
  }

  /** A price printed with thousands separators in the whole dollars. */
  function GroupedDollarText(cents: int): string {
    var m := Magnitude(cents);
    MinusIf(cents < 0) + "$" + (Grouped(NatToString(m / 100)) + "." + CentDigits(m))
  }

  /** A price printed with thousands separators reads back as exactly its value. */
  lemma GroupedMoneyRoundTrip(cents: int)
    ensures ParseMoney(GroupedDollarText(cents)) == Some(cents as real / 100.0)
  {
    StrippedGroupedText(cents);
    ParseFloatRoundTrip(cents, []);
  }

  /** Stripping a price with thousands separators leaves the bare number
      `parseFloat` reads. */
  lemma StrippedGroupedText(cents: int)
    ensures StripCurrency(GroupedDollarText(cents)) == CentsToString(cents) + []
  {
    var m := Magnitude(cents);
    var sign := MinusIf(cents < 0);
    var whole := NatToString(m / 100);
    var cent := CentDigits(m);
    var body := Grouped(whole) + "." + cent;
    StrippedGroupedBody(whole, cent);
    calc {
      StripCurrency(GroupedDollarText(cents));
      StripCurrency(sign + "$" + body);
      { StripCurrencyAppend(sign + "$", body); StripCurrencyAppend(sign, "$"); }
      StripCurrency(sign) + StripCurrency("$") + StripCurrency(body);
      { StripCurrencyUnchanged(sign); assert StripCurrency("$") == []; }
      sign + [] + (whole + "." + cent);
      { assert sign + [] == sign; }
      SignedFixed(cents < 0, whole, cent);
      CentsToString(cents);
      CentsToString(cents) + [];
    }
  }

  /** Stripping whole dollars with thousands separators, a point and the
      cent digits leaves the plain digits around the point. */
  lemma StrippedGroupedBody(whole: string, cent: string)
    requires DigitsIn(whole, 0, |whole|) && DigitsIn(cent, 0, |cent|)
    ensures StripCurrency(Grouped(whole) + "." + cent) == whole + "." + cent
  {
    assert '$' !in whole && ',' !in whole by {
      assert forall i | 0 <= i < |whole| :: IsDigit(whole[i]);
    }
    assert '$' !in cent && ',' !in cent by {
      assert forall i | 0 <= i < |cent| :: IsDigit(cent[i]);
    }
    StripGrouped(whole);
    StripCurrencyAppend(Grouped(whole) + ".", cent);
    StripCurrencyAppend(Grouped(whole), ".");
    StripCurrencyUnchanged(".");
    StripCurrencyUnchanged(cent);
  }

  /** What one iteration of `parseAmounts` does with a row: a row needs both
      elements, a non-blank label and content, and content that parses as a
      number; negative numbers are discounts, the rest are amounts. */
  function UseOf(row: Row): (u: RowUse)
    ensures u != Unused <==>
      && row.labelText.Some? && !AllSpace(row.labelText.value)
      && row.contentText.Some? && !AllSpace(row.contentText.value)
      && (var t := TrimStart(StripCurrency(Trim(row.contentText.value))); StartsDecimal(t, SignEnd(t, 0)))
    ensures u.Amount? ==> u.value >= 0.0 && u.key != [] && IsTrimmed(u.key)
    ensures u.Discounted? ==> u.discount.amount < 0.0 && u.discount.description != [] && IsTrimmed(u.discount.description)
    ensures u.Amount? ==>
      && row.labelText.Some? && u.key == Trim(row.labelText.value)
      && row.contentText.Some? && ParseMoney(Trim(row.contentText.value)) == Some(u.value)
    ensures u.Discounted? ==>
      && row.labelText.Some? && u.discount.description == Trim(row.labelText.value)
      && row.contentText.Some? && ParseMoney(Trim(row.contentText.value)) == Some(u.discount.amount)
  {
    if row.labelText.None? || row.contentText.None? then Unused
    else
      var key := Trim(row.labelText.value);
      var text := Trim(row.contentText.value);
      if key == [] || text == [] then Unused
      else
        match ParseMoney(text)
        case None => Unused
        case Some(v) => if v < 0.0 then Discounted(Discount(key, v)) else Amount(key, v)
  }

  /** A row whose label is `key` and whose content is a printed price ends up
      in the discounts exactly when the price is negative. */
  lemma PrintedPriceRow(key: string, cents: int)
    requires key != [] && IsTrimmed(key)
    ensures cents < 0 ==> UseOf(Row(Some(key), Some(DollarText(cents)))) == Discounted(Discount(key, cents as real / 100.0))
    ensures cents >= 0 ==> UseOf(Row(Some(key), Some(DollarText(cents)))) == Amount(key, cents as real / 100.0)
  {
    DollarTextTrimmed(cents);
    ParseMoneyRoundTrip(cents);
    ParsedRow(key, DollarText(cents), cents as real / 100.0);
  }

  /** A printed price starts with a minus or a dollar sign and ends with a digit. */
  lemma DollarTextTrimmed(cents: int)
    ensures DollarText(cents) != [] && IsTrimmed(DollarText(cents))
  {
    var text := DollarText(cents);
    assert text[|text| - 1] == CentDigits(Magnitude(cents))[1];
    assert text[0] == '-' || text[0] == '$';
  }

  /** A row with a trimmed label and trimmed content that parses as `v`: an
      amount or a discount of `v` depending on its sign. */
  lemma ParsedRow(key: string, text: string, v: real)
    requires key != [] && IsTrimmed(key) && text != [] && IsTrimmed(text)
    requires ParseMoney(text) == Some(v)
    ensures UseOf(Row(Some(key), Some(text))) == if v < 0.0 then Discounted(Discount(key, v)) else Amount(key, v)
  {
  }

  /** Every row's use, in document order. */
  function Uses(rows: seq<Row>): (us: seq<RowUse>)
    ensures |us| == |rows|
    ensures forall i | 0 <= i < |rows| :: us[i] == UseOf(rows[i])
  {
    seq(|rows|, i requires 0 <= i < |rows| => UseOf(rows[i]))
  }

  /** One iteration of the loop over the rows. */
  function Absorb(e: Extracted, u: RowUse): Extracted {
    match u
    case Unused => e
    case Discounted(d) => e.(discounts := e.discounts + [d])
    case Amount(key, v) => e.(amounts := e.amounts[key := v])
  }

  /** The loop of `parseAmounts` over the rows' uses, in document order. */
  function Collect(us: seq<RowUse>): (e: Extracted)
    requires forall i | 0 <= i < |us| :: us[i].Amount? ==> us[i].value >= 0.0
    requires forall i | 0 <= i < |us| :: us[i].Discounted? ==> us[i].discount.amount < 0.0
    ensures forall key | key in e.amounts :: e.amounts[key] >= 0.0
    ensures forall i | 0 <= i < |e.discounts| :: e.discounts[i].amount < 0.0
  {
    if |us| == 0 then Extracted(map[], [])
    else Absorb(Collect(us[..|us| - 1]), us[|us| - 1])
  }

  /** `parseAmounts`. */
  function ParseAmounts(rows: seq<Row>): (e: Extracted)
    ensures forall key | key in e.amounts :: e.amounts[key] >= 0.0
    ensures forall i | 0 <= i < |e.discounts| :: e.discounts[i].amount < 0.0
  {
    Collect(Uses(rows))
  }

  /** The discounts among the uses, in order: an independent description of
      the discounts list. */
  function DiscountsOf(us: seq<RowUse>): seq<Discount> {
    if |us| == 0 then []
    else (if us[0].Discounted? then [us[0].discount] else []) + DiscountsOf(us[1..])
  }

  lemma {:induction false} DiscountsOfAppend(a: seq<RowUse>, b: seq<RowUse>)
    ensures DiscountsOf(a + b) == DiscountsOf(a) + DiscountsOf(b)
    decreases |a|
  {
    if |a| == 0 {
      assert a + b == b;
    } else {
      var head := if a[0].Discounted? then [a[0].discount] else [];
      assert (a + b)[0] == a[0];
      assert (a + b)[1..] == a[1..] + b;
      DiscountsOfAppend(a[1..], b);
      calc {
        DiscountsOf(a + b);
        head + DiscountsOf(a[1..] + b);
        head + (DiscountsOf(a[1..]) + DiscountsOf(b));
        (head + DiscountsOf(a[1..])) + DiscountsOf(b);
      }
    }
  }

  /** The discounts list holds exactly the negative rows, in document order. */
  lemma DiscountsInRowOrder(rows: seq<Row>)
    ensures ParseAmounts(rows).discounts == DiscountsOf(Uses(rows))
  {
    CollectedDiscounts(Uses(rows));
  }

  lemma {:induction false} CollectedDiscounts(us: seq<RowUse>)
    requires forall i | 0 <= i < |us| :: us[i].Amount? ==> us[i].value >= 0.0
    requires forall i | 0 <= i < |us| :: us[i].Discounted? ==> us[i].discount.amount < 0.0
    ensures Collect(us).discounts == DiscountsOf(us)
    decreases |us|
  {
    if |us| > 0 {
      var init := us[..|us| - 1];
      CollectedDiscounts(init);
      assert us == init + [us[|us| - 1]];
      DiscountsOfAppend(init, [us[|us| - 1]]);
    }
  }

  /** The use sets `key` in the amounts map. */
  predicate SetsAmount(u: RowUse, key: string) {
    u.Amount? && u.key == key
  }

  /** A label is in the amounts map exactly when some non-negative row carries it. */
  lemma AmountKeys(rows: seq<Row>, key: string)
    ensures key in ParseAmounts(rows).amounts <==> exists i | 0 <= i < |rows| :: SetsAmount(UseOf(rows[i]), key)
  {
    CollectedKeys(Uses(rows), key);
  }

  lemma {:induction false} CollectedKeys(us: seq<RowUse>, key: string)
    requires forall i | 0 <= i < |us| :: us[i].Amount? ==> us[i].value >= 0.0
    requires forall i | 0 <= i < |us| :: us[i].Discounted? ==> us[i].discount.amount < 0.0
    ensures key in Collect(us).amounts <==> exists i | 0 <= i < |us| :: SetsAmount(us[i], key)
    decreases |us|
  {
    if |us| > 0 {
      var init := us[..|us| - 1];
      CollectedKeys(init, key);
      if exists i | 0 <= i < |init| :: SetsAmount(init[i], key) {
        var i :| 0 <= i < |init| && SetsAmount(init[i], key);
        assert us[i] == init[i];
      }
      if exists i | 0 <= i < |us| :: SetsAmount(us[i], key) {
        var i :| 0 <= i < |us| && SetsAmount(us[i], key);
        if i < |init| { assert init[i] == us[i]; }
      }
    }
  }

  /** Repeated labels overwrite: the map holds the value of the last
      non-negative row with that label. */
  lemma LastAmountWins(rows: seq<Row>, key: string, i: nat)
    requires i < |rows| && SetsAmount(UseOf(rows[i]), key)
    requires forall j | i < j < |rows| :: !SetsAmount(UseOf(rows[j]), key)
    ensures key in ParseAmounts(rows).amounts
    ensures ParseAmounts(rows).amounts[key] == UseOf(rows[i]).value
  {
    CollectedLastWins(Uses(rows), key, i);
  }

  lemma {:induction false} CollectedLastWins(us: seq<RowUse>, key: string, i: nat)
    requires forall i | 0 <= i < |us| :: us[i].Amount? ==> us[i].value >= 0.0
    requires forall i | 0 <= i < |us| :: us[i].Discounted? ==> us[i].discount.amount < 0.0
    requires i < |us| && SetsAmount(us[i], key)
    requires forall j | i < j < |us| :: !SetsAmount(us[j], key)
    ensures key in Collect(us).amounts
    ensures Collect(us).amounts[key] == us[i].value
    decreases |us|
  {
    var init := us[..|us| - 1];
    if i < |us| - 1 {
      forall j | i < j < |init| ensures !SetsAmount(init[j], key) {
        assert init[j] == us[j];
      }
      assert init[i] == us[i];
      CollectedLastWins(init, key, i);
    }
  }

  /** `getAmount`: the value stored under `key`, or the error naming it. */
  function GetAmount(amounts: map<string, real>, key: string): (r: Result<real, ParseError>)
    ensures r.Success? <==> key in amounts
    ensures r.Success? ==> r.value == amounts[key]
    ensures r.Failure? ==> r.error == AmountNotFound(key)
  {
    if key in amounts then Success(amounts[key]) else Failure(AmountNotFound(key))
  }

  /** `validateNonNegative`. */
  function ValidateNonNegative(key: string, amount: real): (r: Outcome<ParseError>)
    ensures r.Pass? <==> amount >= 0.0
    ensures r.Fail? ==> r.error == NegativeAmount(key, amount)
  {
    if amount < 0.0 then Fail(NegativeAmount(key, amount)) else Pass
  }
}

=== FILE: fields.dfy ===
/** `parseOrderDate`, `parsePaymentMethod` and `parseShippingAddress`: the
    fields of the order page that each come from a single element. An element
    is given as `Some(text)` (its text content) or `None` (not found). */
module Fields {
  import opened Wrappers
  import opened JsText
  import opened Order

  /** `parseOrderDate`. `dateOf` stands for `new Date(text).valueOf()`, with
      `None` for the `NaN` of a date JavaScript cannot read. */
  function ParseOrderDate(element: Option<string>, dateOf: string -> Option<int>): (r: Result<Instant, ParseError>)
    ensures element.None? ==> r == Failure(OrderDateElementNotFound)
    ensures element.Some? && AllSpace(element.value) ==> r == Failure(OrderDateTextNotFound)
    ensures r.Success? ==> element.Some? && dateOf(Trim(element.value) + " UTC") == Some(r.value.millis)
    ensures r.Failure? ==> r.error.OrderDateElementNotFound? || r.error.OrderDateTextNotFound? || r.error.InvalidDate?
    ensures r.Failure? && r.error.InvalidDate? ==>
      element.Some? && r.error.text == Trim(element.value) && r.error.text != [] && dateOf(r.error.text + " UTC").None?
    ensures r == Failure(OrderDateElementNotFound) <==> element.None?
    ensures r == Failure(OrderDateTextNotFound) <==> element.Some? && AllSpace(element.value)
    ensures element.Some? && !AllSpace(element.value) && dateOf(Trim(element.value) + " UTC").None? ==>
      r == Failure(InvalidDate(Trim(element.value)))
    ensures element.Some? && !AllSpace(element.value) && dateOf(Trim(element.value) + " UTC").Some? ==>
      r == Success(Instant(dateOf(Trim(element.value) + " UTC").value))
  {
    match element
    case None => Failure(OrderDateElementNotFound)
    case Some(text) =>
      var dateText := Trim(text);
      if dateText == [] then Failure(OrderDateTextNotFound)
      else
        match dateOf(dateText + " UTC")
        case None => Failure(InvalidDate(dateText))
        case Some(millis) => Success(Instant(millis))
  }

  /** `parsePaymentMethod`: the trimmed text with every white-space run
      replaced by one space. */
  function ParsePaymentMethod(element: Option<string>): (r: Result<string, ParseError>)
    ensures r.Failure? <==> element.None? || AllSpace(element.value)
    ensures element.None? ==> r == Failure(PaymentMethodElementNotFound)
    ensures element.Some? && AllSpace(element.value) ==> r == Failure(PaymentMethodTextNotFound)
    ensures r.Success? ==> r.value != [] && IsTrimmed(r.value) && IsCollapsed(r.value)
    ensures r.Success? ==> Visible(r.value) == Visible(element.value)
    ensures r.Success? ==> Words(r.value) == Words(element.value)
  {
    match element
    case None => Failure(PaymentMethodElementNotFound)
    case Some(text) =>
      var paymentText := Trim(text);
      TrimVisible(text);
      TrimWords(text);
      CollapseVisible(paymentText);
      if paymentText == [] then Failure(PaymentMethodTextNotFound)
      else Success(CollapseSpaces(paymentText))
  }

  /** A payment method that is already normalised reads back unchanged. */
  lemma PaymentMethodRoundTrip(payment: string)
    requires payment != [] && IsTrimmed(payment) && IsCollapsed(payment)
    ensures ParsePaymentMethod(Some(payment)) == Success(payment)
  {
    CollapsedUnchanged(payment);
  }

  /** The heading line the address block may contain. */
  const ShipToHeading: string := "Ship to"

  /** The filter of `parseShippingAddress`. */
  predicate KeepLine(line: string) {
    |line| > 0 && line != ShipToHeading
  }

  /** `.map(line => line.trim())`. */
  function TrimAll(parts: seq<string>): (lines: seq<string>)
    ensures |lines| == |parts|
    ensures forall i | 0 <= i < |parts| :: lines[i] == Trim(parts[i])
  {
    seq(|parts|, i requires 0 <= i < |parts| => Trim(parts[i]))
  }

  /** `.filter(line => line.length > 0 && line !== 'Ship to')`. */
  function KeepLines(lines: seq<string>): (kept: seq<string>)
    ensures |kept| <= |lines|
    ensures forall i | 0 <= i < |kept| :: KeepLine(kept[i]) && kept[i] in lines
    ensures forall i | 0 <= i < |lines| && KeepLine(lines[i]) :: lines[i] in kept
  {
    if |lines| == 0 then []
    else
      var rest := KeepLines(lines[1..]);
      var kept := (if KeepLine(lines[0]) then [lines[0]] else []) + rest;
      assert forall i | 1 <= i < |lines| :: lines[i] == lines[1..][i - 1];
      kept
  }

  /** The filter keeps the original order: filtering a concatenation
      concatenates the filtered halves. */
  lemma {:induction false} KeepLinesAppend(a: seq<string>, b: seq<string>)
    ensures KeepLines(a + b) == KeepLines(a) + KeepLines(b)
    decreases |a|
  {
    if |a| == 0 {
      assert a + b == b;
    } else {
      var head := if KeepLine(a[0]) then [a[0]] else [];
      assert (a + b)[0] == a[0];
      assert (a + b)[1..] == a[1..] + b;
      KeepLinesAppend(a[1..], b);
      calc {
        KeepLines(a + b);
        head + KeepLines(a[1..] + b);
        head + (KeepLines(a[1..]) + KeepLines(b));
        (head + KeepLines(a[1..])) + KeepLines(b);
      }
    }
  }

  /** The address lines of a text: its lines, each trimmed, without blank
      lines and without the `Ship to` heading, in order. */
  function AddressLines(text: string): seq<string> {
    KeepLines(TrimAll(Split(text, '\n')))
  }

  /** `parseShippingAddress`: the trimmed address text split at line feeds,
      each line trimmed, blank lines and the `Ship to` heading dropped. */
  function ParseShippingAddress(element: Option<string>): (r: Result<seq<string>, ParseError>)
    ensures element.None? ==> r == Failure(ShippingAddressElementNotFound)
    ensures element.Some? && AllSpace(element.value) ==> r == Failure(ShippingAddressTextNotFound)
    ensures element.Some? && !AllSpace(element.value) && AddressLines(element.value) == [] ==>
      r == Failure(NoShippingAddressLines)
    ensures element.Some? && !AllSpace(element.value) && AddressLines(element.value) != [] ==>
      r == Success(AddressLines(element.value))
    ensures r.Failure? ==> r.error in {ShippingAddressElementNotFound, ShippingAddressTextNotFound, NoShippingAddressLines}
    ensures r.Success? ==> |r.value| > 0
    ensures r.Success? ==> forall i | 0 <= i < |r.value| ::
      r.value[i] != [] && IsTrimmed(r.value[i]) && r.value[i] != ShipToHeading && '\n' !in r.value[i]
  {
    match element
    case None => Failure(ShippingAddressElementNotFound)
    case Some(text) =>
      var addressText := Trim(text);
      if addressText == [] then Failure(ShippingAddressTextNotFound)
      else
        var lines := AddressLines(addressText);
        AddressLinesShape(addressText);
        AddressLinesOfTrim(text);
        if |lines| == 0 then Failure(NoShippingAddressLines) else Success(lines)
  }

  /** Address lines are non-empty, trimmed, not the heading, and hold no line feed. */
  lemma AddressLinesShape(text: string)
    ensures forall i | 0 <= i < |AddressLines(text)| ::
      var line := AddressLines(text)[i];
      line != [] && IsTrimmed(line) && line != ShipToHeading && '\n' !in line
  {
    var parts := Split(text, '\n');
    forall i | 0 <= i < |parts| ensures '\n' !in Trim(parts[i]) {
      TrimKeepsOut(parts[i], '\n');
    }
  }

  /** Every address text is its lines joined with line feeds, so this
      describes `parseShippingAddress` on every present element in terms of
      the element's own lines. */
  lemma ShippingAddressOfLines(lines: seq<string>)
    requires |lines| > 0
    requires forall i | 0 <= i < |lines| :: '\n' !in lines[i]
    ensures AllSpace(Join(lines, '\n')) ==> ParseShippingAddress(Some(Join(lines, '\n'))) == Failure(ShippingAddressTextNotFound)
    ensures !AllSpace(Join(lines, '\n')) && KeepLines(TrimAll(lines)) == [] ==>
      ParseShippingAddress(Some(Join(lines, '\n'))) == Failure(NoShippingAddressLines)
    ensures !AllSpace(Join(lines, '\n')) && KeepLines(TrimAll(lines)) != [] ==>
      ParseShippingAddress(Some(Join(lines, '\n'))) == Success(KeepLines(TrimAll(lines)))
  {
    SplitJoin(lines, '\n');
    assert AddressLines(Join(lines, '\n')) == KeepLines(TrimAll(lines));
  }

  /** Trimming the whole text first changes no address line: the white space
      it removes only makes blank lines or the ends of the outer lines. */
  lemma AddressLinesOfTrim(text: string)
    ensures AddressLines(Trim(text)) == AddressLines(text)
  {
    var a, b :| 0 <= a <= b <= |text| && Trim(text) == text[a..b] && AllSpace(text[..a]) && AllSpace(text[b..]);
    var pre, mid, post := text[..a], text[a..b], text[b..];
    assert text == pre + (mid + post) by {
      assert mid + post == text[a..];
    }
    AddressLinesAfterSpaces(pre, mid + post);
    AddressLinesBeforeSpaces(mid, post);
  }

  lemma {:induction false} AddressLinesAfterSpaces(p: string, q: string)
    requires AllSpace(p)
    ensures AddressLines(p + q) == AddressLines(q)
    decreases |p|
  {
    if |p| == 0 {
      assert p + q == q;
    } else {
      assert p + q == [p[0]] + (p[1..] + q);
      AddressLinesAfterSpaces(p[1..], q);
      AddressLinesSpaceCons(p[0], p[1..] + q);
    }
  }

  lemma {:induction false} AddressLinesBeforeSpaces(p: string, q: string)
    requires AllSpace(q)
    ensures AddressLines(p + q) == AddressLines(p)
    decreases |q|
  {
    if |q| == 0 {
      assert p + q == p;
    } else {
      var init := q[..|q| - 1];
      assert p + q == (p + init) + [q[|q| - 1]];
      AddressLinesSpaceSnoc(p + init, q[|q| - 1]);
      AddressLinesBeforeSpaces(p, init);
    }
  }

  /** A white-space character before the text adds a blank line or widens the
      first line by white space; either way the address lines are the same. */
  lemma AddressLinesSpaceCons(c: char, s: string)
    requires IsSpace(c)
    ensures AddressLines([c] + s) == AddressLines(s)
  {
    var t := [c] + s;
    var rest := Split(s, '\n');
    assert t[1..] == s && t[0] == c;
    if c == '\n' {
      assert Split(t, '\n') == [[]] + rest;
      BlankPartFirst(rest);
    } else {
      var parts := [[c] + rest[0]] + rest[1..];
      assert Split(t, '\n') == parts;
      TrimCons(c, rest[0]);
      assert TrimAll(parts) == TrimAll(rest);
    }
  }

  /** A blank first line is dropped. */
  lemma BlankPartFirst(parts: seq<string>)
    ensures KeepLines(TrimAll([[]] + parts)) == KeepLines(TrimAll(parts))
  {
    TrimAllAppend([[]], parts);
    assert TrimAll([[]]) == [[]];
    KeepLinesAppend([[]], TrimAll(parts));
  }

  /** A blank last line is dropped. */
  lemma BlankPartLast(parts: seq<string>)
    ensures KeepLines(TrimAll(parts + [[]])) == KeepLines(TrimAll(parts))
  {
    TrimAllAppend(parts, [[]]);
    assert TrimAll([[]]) == [[]];
    KeepLinesAppend(TrimAll(parts), [[]]);
  }

  /** `TrimAll` trims element by element, so it distributes over
      concatenation; used to peel the empty line off either end. */
  lemma TrimAllAppend(x: seq<string>, y: seq<string>)
    ensures TrimAll(x + y) == TrimAll(x) + TrimAll(y)
  {
  }

  /** A white-space character after the text adds a blank line or widens the
      last line by white space; either way the address lines are the same. */
  lemma AddressLinesSpaceSnoc(s: string, c: char)
    requires IsSpace(c)
    ensures AddressLines(s + [c]) == AddressLines(s)
  {
    if c == '\n' {
      AddressLinesBreakSnoc(s, Split(s, '\n'));
    } else {
      AddressLinesWiderSnoc(s, c, Split(s, '\n'));
    }
  }

  lemma AddressLinesBreakSnoc(s: string, parts: seq<string>)
    requires parts == Split(s, '\n')
    ensures AddressLines(s + ['\n']) == AddressLines(s)
  {
    var longer := parts + [[]];
    JoinAppendPart(parts, [], '\n');
    assert s + ['\n'] == Join(longer, '\n');
    assert forall i | 0 <= i < |longer| :: '\n' !in longer[i];
    SplitJoin(longer, '\n');
    BlankPartLast(parts);
  }

  lemma AddressLinesWiderSnoc(s: string, c: char, parts: seq<string>)
    requires IsSpace(c) && c != '\n' && parts == Split(s, '\n')
    ensures AddressLines(s + [c]) == AddressLines(s)
  {
    var n := |parts|;
    var longer := parts[..n - 1] + [parts[n - 1] + [c]];
    JoinExtendLast(parts, [c], '\n');
    assert s + [c] == Join(longer, '\n');
    assert forall i | 0 <= i < |longer| :: '\n' !in longer[i];
    SplitJoin(longer, '\n');
    forall i | 0 <= i < n ensures Trim(longer[i]) == Trim(parts[i]) {
      if i == n - 1 {
        TrimSnoc(parts[n - 1], c);
      } else {
        assert longer[i] == parts[i];
      }
    }
    SameTrims(longer, parts);
  }

  /** Lists of the same length whose elements trim alike trim alike; the
      step that lets a widened line stand for the original. */
  lemma SameTrims(x: seq<string>, y: seq<string>)
    requires |x| == |y| && forall i | 0 <= i < |x| :: Trim(x[i]) == Trim(y[i])
    ensures TrimAll(x) == TrimAll(y)
  {
  }

  /** Joining one more part adds a separator and the part. */
  lemma {:induction false} JoinAppendPart(parts: seq<string>, x: string, sep: char)
    requires |parts| > 0
    ensures Join(parts + [x], sep) == Join(parts, sep) + [sep] + x
    decreases |parts|
  {
    assert (parts + [x])[0] == parts[0];
    assert (parts + [x])[1..] == parts[1..] + [x];
    if |parts| > 1 {
      JoinAppendPart(parts[1..], x, sep);
    }
  }

  /** Extending the last part extends the join. */
  lemma {:induction false} JoinExtendLast(parts: seq<string>, x: string, sep: char)
    requires |parts| > 0
    ensures Join(parts[..|parts| - 1] + [parts[|parts| - 1] + x], sep) == Join(parts, sep) + x
    decreases |parts|
  {
    var longer := parts[..|parts| - 1] + [parts[|parts| - 1] + x];
    if |parts| > 1 {
      var tail := parts[1..];
      assert longer[0] == parts[0];
      assert longer[1..] == tail[..|tail| - 1] + [tail[|tail| - 1] + x];
      JoinExtendLast(tail, x, sep);
    }
  }

  /** Address lines joined with line feeds read back as the same lines. */
  lemma ShippingAddressRoundTrip(lines: seq<string>)
    requires |lines| > 0
    requires forall i | 0 <= i < |lines| :: KeepLine(lines[i]) && IsTrimmed(lines[i]) && '\n' !in lines[i]
    ensures ParseShippingAddress(Some(Join(lines, '\n'))) == Success(lines)
  {
    JoinedLinesTrimmed(lines);
    SplitJoin(lines, '\n');
    KeptTrimmedLines(lines);
    ShippingAddressOfTrimmed(Join(lines, '\n'));
  }

  lemma JoinedLinesTrimmed(lines: seq<string>)
    requires |lines| > 0
    requires forall i | 0 <= i < |lines| :: KeepLine(lines[i]) && IsTrimmed(lines[i])
    ensures Join(lines, '\n') != [] && Trim(Join(lines, '\n')) == Join(lines, '\n')
  {
    JoinEnds(lines, '\n');
  }

  lemma KeptTrimmedLines(lines: seq<string>)
    requires forall i | 0 <= i < |lines| :: KeepLine(lines[i]) && IsTrimmed(lines[i])
    ensures KeepLines(TrimAll(lines)) == lines
  {
    assert TrimAll(lines) == lines;
    KeepLinesUnchanged(lines);
  }

  lemma ShippingAddressOfTrimmed(text: string)
    requires text != [] && Trim(text) == text
    ensures var lines := KeepLines(TrimAll(Split(text, '\n')));
            ParseShippingAddress(Some(text)) == if |lines| == 0 then Failure(NoShippingAddressLines) else Success(lines)
  {
  }

  lemma {:induction false} KeepLinesUnchanged(lines: seq<string>)
    requires forall i | 0 <= i < |lines| :: KeepLine(lines[i])
    ensures KeepLines(lines) == lines
    decreases |lines|
  {
    if |lines| > 0 {
      KeepLinesUnchanged(lines[1..]);
      assert lines == [lines[0]] + lines[1..];
    }
  }

  /** A join of non-empty trimmed lines starts with the first line's first
      character and ends with the last line's last character. */
  lemma {:induction false} JoinEnds(lines: seq<string>, sep: char)
    requires |lines| > 0
    requires forall i | 0 <= i < |lines| :: lines[i] != []
    ensures var s := Join(lines, sep); |s| > 0 && s[0] == lines[0][0] && s[|s| - 1] == lines[|lines| - 1][|lines[|lines| - 1]| - 1]
    decreases |lines|
  {
    if |lines| > 1 {
      JoinEnds(lines[1..], sep);
    }
  }
}

=== FILE: invoice_parser.dfy ===
/** `InvoiceParser.parseInvoice`: an order page to one `OrderDetail`, or the
    first `InvoiceParserError` the page provokes. */
module InvoiceParser {
  import opened Wrappers
  import opened JsText
  import opened Order
  import opened Amounts
  import opened Fields
  import opened Items

  /** What the parser reads from an order page: the line-item rows; the text
      of the order-date, payment-method and shipping-address elements (`None`
      where the element is missing); and the purchased-item blocks, all in
      document order. */
  datatype InvoiceDocument = InvoiceDocument(
    rows: seq<Row>,
    orderDate: Option<string>,
    paymentMethod: Option<string>,
    shippingAddress: Option<string>,
    items: seq<ItemBlock>)

  const SubtotalLabel: string := "Item(s) Subtotal:"
  const TaxLabel: string := "Estimated tax to be collected:"
  const PreTaxTotalLabel: string := "Total before tax:"
  const GrandTotalLabel: string := "Grand Total:"
  const ShippingLabel: string := "Shipping & Handling:"

  /** The five amounts every invoice must carry, in the order they are looked up. */
  const RequiredLabels: seq<string> := [SubtotalLabel, TaxLabel, PreTaxTotalLabel, GrandTotalLabel, ShippingLabel]

  /** How far a total may stray from the value recomputed from its parts. */
  const Tolerance: real := 0.01

  datatype Totals = Totals(subtotal: real, tax: real, preTaxTotal: real, grandTotal: real, shippingAndHandling: real)

  /** `a` and `b` agree to within the tolerance. */
  predicate Agrees(a: real, b: real) {
    -Tolerance <= a - b <= Tolerance
  }

  function Abs(x: real): (r: real)
    ensures r >= 0.0 && (r == x || r == -x)
  {
    if x < 0.0 then -x else x
  }

  /** `getAmount` for each label in turn: the first label missing from the
      map is the error. */
  function LookupAll(amounts: map<string, real>, labels: seq<string>): (r: Result<seq<real>, ParseError>)
    ensures r.Success? <==> forall i | 0 <= i < |labels| :: labels[i] in amounts
    ensures r.Success? ==> |r.value| == |labels| && forall i | 0 <= i < |labels| :: r.value[i] == amounts[labels[i]]
    ensures r.Failure? ==> exists i | 0 <= i < |labels| ::
      && labels[i] !in amounts
      && r.error == AmountNotFound(labels[i])
      && forall j | 0 <= j < i :: labels[j] in amounts
  {
    if |labels| == 0 then Success([])
    else
      var first :- GetAmount(amounts, labels[0]);
      var rest := LookupAll(amounts, labels[1..]);
      assert forall i | 1 <= i < |labels| :: labels[i] == labels[1..][i - 1];
      match rest
      case Failure(e) => Failure(e)
      case Success(values) => Success([first] + values)
  }

  /** The five `getAmount` calls of `parseInvoice`. */
  function LookupTotals(amounts: map<string, real>): (r: Result<Totals, ParseError>)
    ensures r.Success? <==> forall i | 0 <= i < |RequiredLabels| :: RequiredLabels[i] in amounts
    ensures r.Success? ==>
      && SubtotalLabel in amounts && r.value.subtotal == amounts[SubtotalLabel]
      && TaxLabel in amounts && r.value.tax == amounts[TaxLabel]
      && PreTaxTotalLabel in amounts && r.value.preTaxTotal == amounts[PreTaxTotalLabel]
      && GrandTotalLabel in amounts && r.value.grandTotal == amounts[GrandTotalLabel]
      && ShippingLabel in amounts && r.value.shippingAndHandling == amounts[ShippingLabel]
    ensures r.Failure? ==> exists i | 0 <= i < |RequiredLabels| ::
      && RequiredLabels[i] !in amounts
      && r.error == AmountNotFound(RequiredLabels[i])
      && forall j | 0 <= j < i :: RequiredLabels[j] in amounts
  {
    var values :- LookupAll(amounts, RequiredLabels);
    assert RequiredLabels[0] == SubtotalLabel && RequiredLabels[1] == TaxLabel && RequiredLabels[2] == PreTaxTotalLabel;
    assert RequiredLabels[3] == GrandTotalLabel && RequiredLabels[4] == ShippingLabel;
    Success(Totals(values[0], values[1], values[2], values[3], values[4]))
  }

  /** The five `validateNonNegative` calls, in lookup order. */
  function ValidateTotals(t: Totals): (r: Outcome<ParseError>)
    ensures r.Pass? <==>
      t.subtotal >= 0.0 && t.tax >= 0.0 && t.preTaxTotal >= 0.0 && t.grandTotal >= 0.0 && t.shippingAndHandling >= 0.0
    ensures r.Fail? ==> r.error.NegativeAmount? && r.error.amount < 0.0
    ensures t.subtotal < 0.0 ==> r == Fail(NegativeAmount(SubtotalLabel, t.subtotal))
    ensures t.subtotal >= 0.0 && t.tax < 0.0 ==> r == Fail(NegativeAmount(TaxLabel, t.tax))
    ensures t.subtotal >= 0.0 && t.tax >= 0.0 && t.preTaxTotal < 0.0
            ==> r == Fail(NegativeAmount(PreTaxTotalLabel, t.preTaxTotal))
    ensures t.subtotal >= 0.0 && t.tax >= 0.0 && t.preTaxTotal >= 0.0 && t.grandTotal < 0.0
            ==> r == Fail(NegativeAmount(GrandTotalLabel, t.grandTotal))
    ensures t.subtotal >= 0.0 && t.tax >= 0.0 && t.preTaxTotal >= 0.0 && t.grandTotal >= 0.0 && t.shippingAndHandling < 0.0
            ==> r == Fail(NegativeAmount(ShippingLabel, t.shippingAndHandling))
  {
    if ValidateNonNegative(SubtotalLabel, t.subtotal).Fail? then ValidateNonNegative(SubtotalLabel, t.subtotal)
    else if ValidateNonNegative(TaxLabel, t.tax).Fail? then ValidateNonNegative(TaxLabel, t.tax)
    else if ValidateNonNegative(PreTaxTotalLabel, t.preTaxTotal).Fail? then ValidateNonNegative(PreTaxTotalLabel, t.preTaxTotal)
    else if ValidateNonNegative(GrandTotalLabel, t.grandTotal).Fail? then ValidateNonNegative(GrandTotalLabel, t.grandTotal)
    else ValidateNonNegative(ShippingLabel, t.shippingAndHandling)
  }

  /** `discounts.reduce((sum, d) => sum + d.amount, 0)`: summed left to right.
      Discounts are negative, so together they never add to a total. */
  function DiscountSum(discounts: seq<Discount>): (r: real)
    ensures (forall i | 0 <= i < |discounts| :: discounts[i].amount < 0.0) ==> r <= 0.0
    ensures (forall i | 0 <= i < |discounts| :: discounts[i].amount < 0.0) && |discounts| > 0 ==> r < 0.0
    ensures |discounts| == 1 ==> r == discounts[0].amount
  {
    if |discounts| == 0 then 0.0
    else
      var init := discounts[..|discounts| - 1];
      assert forall i | 0 <= i < |init| :: init[i] == discounts[i];
      DiscountSum(init) + discounts[|discounts| - 1].amount
  }

  /** The sum over a concatenation is the sum of the sums. */
  lemma {:induction false} DiscountSumAppend(a: seq<Discount>, b: seq<Discount>)
    ensures DiscountSum(a + b) == DiscountSum(a) + DiscountSum(b)
  {
    if |b| > 0 {
      var init := b[..|b| - 1];
      assert (a + b)[..|a + b| - 1] == a + init;
      DiscountSumAppend(a, init);
    } else {
      assert a + b == a;
    }
  }

  /** The two total checks, pre-tax total first: each fails when the printed
      total differs from the recomputed one by more than the tolerance. */
  function CheckTotals(t: Totals, discounts: seq<Discount>): (r: Outcome<ParseError>)
    ensures r.Pass? <==>
      && Agrees(t.preTaxTotal, t.subtotal + t.shippingAndHandling + DiscountSum(discounts))
      && Agrees(t.grandTotal, t.tax + t.preTaxTotal)
    ensures !Agrees(t.preTaxTotal, t.subtotal + t.shippingAndHandling + DiscountSum(discounts)) ==>
      r == Fail(PreTaxTotalMismatch(t.subtotal + t.shippingAndHandling + DiscountSum(discounts), t.preTaxTotal))
    ensures (Agrees(t.preTaxTotal, t.subtotal + t.shippingAndHandling + DiscountSum(discounts))
             && !Agrees(t.grandTotal, t.tax + t.preTaxTotal)) ==>
      r == Fail(GrandTotalMismatch(t.tax + t.preTaxTotal, t.grandTotal))
  {
    var expectedPreTaxTotal := t.subtotal + t.shippingAndHandling + DiscountSum(discounts);
    var expectedGrandTotal := t.tax + t.preTaxTotal;
    if Abs(t.preTaxTotal - expectedPreTaxTotal) > Tolerance then
      Fail(PreTaxTotalMismatch(expectedPreTaxTotal, t.preTaxTotal))
    else if Abs(t.grandTotal - expectedGrandTotal) > Tolerance then
      Fail(GrandTotalMismatch(expectedGrandTotal, t.grandTotal))
    else Pass
  }

  /** The amounts half of `parseInvoice`: extract the rows, look the five
      totals up, check their signs, then check the two sums. */
  function ParseTotals(rows: seq<Row>): (r: Result<Totals, ParseError>)
    ensures r.Success? ==> LookupTotals(ParseAmounts(rows).amounts) == r
    ensures r.Success? ==> CheckTotals(r.value, ParseAmounts(rows).discounts) == Pass
    ensures LookupTotals(ParseAmounts(rows).amounts).Failure? ==> r == LookupTotals(ParseAmounts(rows).amounts)
    ensures LookupTotals(ParseAmounts(rows).amounts).Success?
            && CheckTotals(LookupTotals(ParseAmounts(rows).amounts).value, ParseAmounts(rows).discounts).Pass? ==>
      r == LookupTotals(ParseAmounts(rows).amounts)
    ensures LookupTotals(ParseAmounts(rows).amounts).Success?
            && CheckTotals(LookupTotals(ParseAmounts(rows).amounts).value, ParseAmounts(rows).discounts).Fail? ==>
      r == Failure(CheckTotals(LookupTotals(ParseAmounts(rows).amounts).value, ParseAmounts(rows).discounts).error)
    ensures r.Failure? ==> !r.error.NegativeAmount?
  {
    var extracted := ParseAmounts(rows);
    var totals :- LookupTotals(extracted.amounts);
    TotalsNonNegative(rows, totals);
    match ValidateTotals(totals)
    case Fail(e) => assert false; Failure(e)
    case Pass =>
      match CheckTotals(totals, extracted.discounts)
      case Fail(e) => Failure(e)
      case Pass => Success(totals)
  }

  /** Every looked-up total comes from the amounts map, which holds no negative value. */
  lemma TotalsNonNegative(rows: seq<Row>, t: Totals)
    requires LookupTotals(ParseAmounts(rows).amounts) == Success(t)
    ensures ValidateTotals(t) == Pass
  {
    var amounts := ParseAmounts(rows).amounts;
    assert SubtotalLabel in amounts && TaxLabel in amounts && PreTaxTotalLabel in amounts;
    assert GrandTotalLabel in amounts && ShippingLabel in amounts by {
      assert RequiredLabels[3] == GrandTotalLabel && RequiredLabels[4] == ShippingLabel;
    }
  }

  /** `parseInvoice`: the totals, then the fields in the order the result
      object lists them — date, payment method, items, shipping address. */
  function ParseInvoice(doc: InvoiceDocument, dateOf: string -> Option<int>): (r: Result<OrderDetail, ParseError>)
    ensures r.Success? <==>
      && ParseTotals(doc.rows).Success?
      && ParseOrderDate(doc.orderDate, dateOf).Success?
      && ParsePaymentMethod(doc.paymentMethod).Success?
      && ParseItems(doc.items).Success?
      && ParseShippingAddress(doc.shippingAddress).Success?
    ensures ParseTotals(doc.rows).Failure? ==> r == Failure(ParseTotals(doc.rows).error)
    ensures ParseTotals(doc.rows).Success? && ParseOrderDate(doc.orderDate, dateOf).Failure? ==>
      r == Failure(ParseOrderDate(doc.orderDate, dateOf).error)
    ensures (ParseTotals(doc.rows).Success? && ParseOrderDate(doc.orderDate, dateOf).Success?
             && ParsePaymentMethod(doc.paymentMethod).Failure?) ==>
      r == Failure(ParsePaymentMethod(doc.paymentMethod).error)
    ensures (ParseTotals(doc.rows).Success? && ParseOrderDate(doc.orderDate, dateOf).Success?
             && ParsePaymentMethod(doc.paymentMethod).Success? && ParseItems(doc.items).Failure?) ==>
      r == Failure(ParseItems(doc.items).error)
    ensures (ParseTotals(doc.rows).Success? && ParseOrderDate(doc.orderDate, dateOf).Success?
             && ParsePaymentMethod(doc.paymentMethod).Success? && ParseItems(doc.items).Success?
             && ParseShippingAddress(doc.shippingAddress).Failure?) ==>
      r == Failure(ParseShippingAddress(doc.shippingAddress).error)
    ensures r.Success? ==>
      && r.value.schemaVersion == SchemaVersion
      && r.value.currency == USD
      && Success(Totals(r.value.subtotal, r.value.tax, r.value.preTaxTotal, r.value.grandTotal, r.value.shippingAndHandling))
         == ParseTotals(doc.rows)
      && r.value.discounts == ParseAmounts(doc.rows).discounts
      && Success(r.value.date) == ParseOrderDate(doc.orderDate, dateOf)
      && Success(r.value.paymentMethod) == ParsePaymentMethod(doc.paymentMethod)
      && Success(r.value.items) == ParseItems(doc.items)
      && Success(r.value.shippingAddress) == ParseShippingAddress(doc.shippingAddress)
  {
    var totals :- ParseTotals(doc.rows);
    var date :- ParseOrderDate(doc.orderDate, dateOf);
    var paymentMethod :- ParsePaymentMethod(doc.paymentMethod);
    var items :- ParseItems(doc.items);
    var shippingAddress :- ParseShippingAddress(doc.shippingAddress);
    Success(OrderDetail(
      SchemaVersion, date, paymentMethod, USD,
      totals.subtotal, totals.tax, totals.preTaxTotal, totals.grandTotal, totals.shippingAndHandling,
      ParseAmounts(doc.rows).discounts, items, shippingAddress))
  }

  /** What a parsed order guarantees: both totals agree with their parts to
      within the tolerance, no total is negative, the discounts are the
      negative rows in page order, and there is one item per item block. */
  lemma InvoiceConsistent(doc: InvoiceDocument, dateOf: string -> Option<int>)
    requires ParseInvoice(doc, dateOf).Success?
    ensures var o := ParseInvoice(doc, dateOf).value;
      && Agrees(o.preTaxTotal, o.subtotal + o.shippingAndHandling + DiscountSum(o.discounts))
      && Agrees(o.grandTotal, o.tax + o.preTaxTotal)
      && o.subtotal >= 0.0 && o.tax >= 0.0 && o.preTaxTotal >= 0.0 && o.grandTotal >= 0.0 && o.shippingAndHandling >= 0.0
      && o.discounts == DiscountsOf(Uses(doc.rows))
      && (forall i | 0 <= i < |o.discounts| :: o.discounts[i].amount < 0.0)
      && o.preTaxTotal <= o.subtotal + o.shippingAndHandling + Tolerance
      && |o.items| == |doc.items|
      && |o.shippingAddress| > 0
  {
    var o := ParseInvoice(doc, dateOf).value;
    var t := ParseTotals(doc.rows).value;
    TotalsNonNegative(doc.rows, t);
    DiscountsInRowOrder(doc.rows);
  }

  /** The amounts check fails with the first required label that no row
      supplies with a non-negative amount, whatever the rest of the page holds. */
  lemma MissingLabelFails(doc: InvoiceDocument, dateOf: string -> Option<int>, k: nat)
    requires k < |RequiredLabels|
    requires forall i | 0 <= i < |doc.rows| :: !SetsAmount(UseOf(doc.rows[i]), RequiredLabels[k])
    requires forall j | 0 <= j < k :: exists i | 0 <= i < |doc.rows| :: SetsAmount(UseOf(doc.rows[i]), RequiredLabels[j])
    ensures ParseInvoice(doc, dateOf) == Failure(AmountNotFound(RequiredLabels[k]))
  {
    var amounts := ParseAmounts(doc.rows).amounts;
    assert RequiredLabels[k] !in amounts by { AmountKeys(doc.rows, RequiredLabels[k]); }
    forall j | 0 <= j < k ensures RequiredLabels[j] in amounts {
      AmountKeys(doc.rows, RequiredLabels[j]);
    }
    LabelsDistinct();
    assert LookupTotals(amounts) == Failure(AmountNotFound(RequiredLabels[k]));
  }

  lemma LabelsDistinct()
    ensures forall i, j | 0 <= i < j < |RequiredLabels| :: RequiredLabels[i] != RequiredLabels[j]
  {
  }

  /** The line-item rows of a page that prints the five totals, given in
      cents, as dollar amounts: one row per required label, in lookup order. */
  function PrintedRows(cents: seq<nat>): (rows: seq<Row>)
    requires |cents| == |RequiredLabels|
    ensures |rows| == |RequiredLabels|
  {
    seq(|cents|, i requires 0 <= i < |cents| => Row(Some(RequiredLabels[i]), Some(DollarText(cents[i]))))
  }

  /** A page printing the five totals in whole cents passes the amounts
      checks exactly when each sum is off by at most one cent, reads back as
      those totals when it does, and otherwise reports the pre-tax mismatch
      before the grand-total one. */
  lemma PrintedTotalsCheck(subtotal: nat, tax: nat, preTaxTotal: nat, grandTotal: nat, shipping: nat)
    ensures var r := ParseTotals(PrintedRows([subtotal, tax, preTaxTotal, grandTotal, shipping]));
      && (r.Success? <==>
           -1 <= preTaxTotal as int - (subtotal + shipping) <= 1 && -1 <= grandTotal as int - (tax + preTaxTotal) <= 1)
      && (r.Success? ==> r.value == Totals(subtotal as real / 100.0, tax as real / 100.0,
                                           preTaxTotal as real / 100.0, grandTotal as real / 100.0,
                                           shipping as real / 100.0))
      && (!(-1 <= preTaxTotal as int - (subtotal + shipping) <= 1) ==>
            r == Failure(PreTaxTotalMismatch((subtotal + shipping) as real / 100.0, preTaxTotal as real / 100.0)))
  {
    var cents: seq<nat> := [subtotal, tax, preTaxTotal, grandTotal, shipping];
    var rows := PrintedRows(cents);
    var t := CentsTotals(cents);
    assert t == Totals(subtotal as real / 100.0, tax as real / 100.0, preTaxTotal as real / 100.0,
                       grandTotal as real / 100.0, shipping as real / 100.0);
    var check := CheckTotals(t, []);
    assert check.Pass? <==>
      -1 <= preTaxTotal as int - (subtotal + shipping) <= 1 && -1 <= grandTotal as int - (tax + preTaxTotal) <= 1
      by { CentsCheck(cents); }
    assert !(-1 <= preTaxTotal as int - (subtotal + shipping) <= 1) ==>
      check == Fail(PreTaxTotalMismatch((subtotal + shipping) as real / 100.0, preTaxTotal as real / 100.0))
      by { CentsCheck(cents); }
    assert check.Pass? ==> ParseTotals(rows) == Success(t) by {
      PrintedLookup(cents);
      PrintedNoDiscounts(cents);
    }
    assert check.Fail? ==> ParseTotals(rows) == Failure(check.error) by {
      PrintedLookup(cents);
      PrintedNoDiscounts(cents);
    }
  }

  /** The totals a list of five cent amounts stands for, in dollars. */
  function CentsTotals(cents: seq<nat>): Totals
    requires |cents| == |RequiredLabels|
  {
    Totals(cents[0] as real / 100.0, cents[1] as real / 100.0, cents[2] as real / 100.0,
           cents[3] as real / 100.0, cents[4] as real / 100.0)
  }

  lemma PrintedLookup(cents: seq<nat>)
    requires |cents| == |RequiredLabels|
    ensures LookupTotals(ParseAmounts(PrintedRows(cents)).amounts) == Success(CentsTotals(cents))
  {
    var amounts := ParseAmounts(PrintedRows(cents)).amounts;
    forall i | 0 <= i < |cents|
      ensures RequiredLabels[i] in amounts && amounts[RequiredLabels[i]] == cents[i] as real / 100.0
    {
      PrintedAmount(cents, i);
    }
    LookupOf(amounts, cents);
  }

  lemma LookupOf(amounts: map<string, real>, cents: seq<nat>)
    requires |cents| == |RequiredLabels|
    requires forall i | 0 <= i < |cents| :: RequiredLabels[i] in amounts && amounts[RequiredLabels[i]] == cents[i] as real / 100.0
    ensures LookupTotals(amounts) == Success(CentsTotals(cents))
  {
    assert RequiredLabels[0] == SubtotalLabel && RequiredLabels[1] == TaxLabel && RequiredLabels[2] == PreTaxTotalLabel;
    assert RequiredLabels[3] == GrandTotalLabel && RequiredLabels[4] == ShippingLabel;
  }

  /** The sum checks on whole-cent totals without discounts. */
  lemma CentsCheck(cents: seq<nat>)
    requires |cents| == |RequiredLabels|
    ensures var r := CheckTotals(CentsTotals(cents), []);
      && (r.Pass? <==> -1 <= cents[2] as int - (cents[0] + cents[4]) <= 1 && -1 <= cents[3] as int - (cents[1] + cents[2]) <= 1)
      && (!(-1 <= cents[2] as int - (cents[0] + cents[4]) <= 1) ==>
            r == Fail(PreTaxTotalMismatch((cents[0] + cents[4]) as real / 100.0, cents[2] as real / 100.0)))
  {
    assert DiscountSum([]) == 0.0;
  }

  /** Every printed row is read as the amount it prints, under its own label. */
  lemma PrintedUses(cents: seq<nat>)
    requires |cents| == |RequiredLabels|
    ensures forall i | 0 <= i < |cents| :: UseOf(PrintedRows(cents)[i]) == Amount(RequiredLabels[i], cents[i] as real / 100.0)
  {
    var rows := PrintedRows(cents);
    forall i | 0 <= i < |cents|
      ensures UseOf(rows[i]) == Amount(RequiredLabels[i], cents[i] as real / 100.0)
    {
      PrintedUse(cents, i);
    }
  }

  lemma PrintedUse(cents: seq<nat>, i: nat)
    requires |cents| == |RequiredLabels| && i < |cents|
    ensures UseOf(PrintedRows(cents)[i]) == Amount(RequiredLabels[i], cents[i] as real / 100.0)
  {
    assert PrintedRows(cents)[i] == Row(Some(RequiredLabels[i]), Some(DollarText(cents[i])));
    LabelTrimmed(i);
    PrintedPriceRow(RequiredLabels[i], cents[i]);
  }

  /** Every required label is a non-blank, trimmed text, as `ParsedRow`
      needs of the row's label; stated per index so that only one label
      is unfolded at a time. */
  lemma LabelTrimmed(i: nat)
    requires i < |RequiredLabels|
    ensures RequiredLabels[i] != [] && IsTrimmed(RequiredLabels[i])
  {
  }

  /** The printed rows give each required label its printed amount. */
  lemma PrintedAmount(cents: seq<nat>, i: nat)
    requires |cents| == |RequiredLabels| && i < |cents|
    ensures RequiredLabels[i] in ParseAmounts(PrintedRows(cents)).amounts
    ensures ParseAmounts(PrintedRows(cents)).amounts[RequiredLabels[i]] == cents[i] as real / 100.0
  {
    var rows := PrintedRows(cents);
    var key := RequiredLabels[i];
    PrintedUses(cents);
    assert SetsAmount(UseOf(rows[i]), key);
    forall j | i < j < |rows| ensures !SetsAmount(UseOf(rows[j]), key) {
      LabelsDistinct();
      assert RequiredLabels[j] != key;
    }
    LastAmountWins(rows, key, i);
  }

  /** The printed rows hold no discount. */
  lemma PrintedNoDiscounts(cents: seq<nat>)
    requires |cents| == |RequiredLabels|
    ensures ParseAmounts(PrintedRows(cents)).discounts == []
  {
    var rows := PrintedRows(cents);
    var us := Uses(rows);
    assert forall i | 0 <= i < |us| :: !us[i].Discounted? by { PrintedUses(cents); }
    NoDiscounts(us);
    assert ParseAmounts(rows).discounts == DiscountsOf(us) by { DiscountsInRowOrder(rows); }
  }

  lemma {:induction false} NoDiscounts(us: seq<RowUse>)
    requires forall i | 0 <= i < |us| :: !us[i].Discounted?
    ensures DiscountsOf(us) == []
  {
    if |us| > 0 {
      NoDiscounts(us[1..]);
    }
  }

  /** `validateNonNegative` never throws: the amounts map holds only
      non-negative values, so no page is rejected for a negative total. */
  lemma NeverNegativeAmount(doc: InvoiceDocument, dateOf: string -> Option<int>)
    ensures ParseInvoice(doc, dateOf).Failure? ==> !ParseInvoice(doc, dateOf).error.NegativeAmount?
  {
    ItemsErrors(doc.items);
    FieldErrors(doc, dateOf);
  }

  /** No item block fails for a negative amount, so neither does the list. */
  lemma ItemsErrors(blocks: seq<ItemBlock>)
    ensures ParseItems(blocks).Failure? ==> !ParseItems(blocks).error.NegativeAmount?
  {
    if ParseItems(blocks).Failure? {
      var i :| 0 <= i < |blocks| && ParseItem(blocks[i]) == Failure(ParseItems(blocks).error);
      ItemErrors(blocks[i]);
    }
  }

  /** The date, payment method and shipping address fail only for a missing
      or unreadable field. */
  lemma FieldErrors(doc: InvoiceDocument, dateOf: string -> Option<int>)
    ensures ParseOrderDate(doc.orderDate, dateOf).Failure? ==> !ParseOrderDate(doc.orderDate, dateOf).error.NegativeAmount?
    ensures ParsePaymentMethod(doc.paymentMethod).Failure? ==> !ParsePaymentMethod(doc.paymentMethod).error.NegativeAmount?
    ensures ParseShippingAddress(doc.shippingAddress).Failure? ==> !ParseShippingAddress(doc.shippingAddress).error.NegativeAmount?
  {
  }

  /** A single item block fails only for a missing element or an
      unreadable number, never for a negative amount. */
  lemma ItemErrors(b: ItemBlock)
    ensures ParseItem(b).Failure? ==> !ParseItem(b).error.NegativeAmount?
  {
  }
}

=== FILE: items.dfy ===
/** `parseItems`: one item record per purchased-item block, in document order. */
module Items {
  import opened Wrappers
  import opened JsText
  import opened JsNumbers
  import opened Order
  import opened Amounts

  /** A purchased-item block (`.a-fixed-left-grid`): the text of its title,
      seller, supplier, unit-price and quantity elements, `None` where the
      block has no such element. */
  datatype ItemBlock = ItemBlock(
    title: Option<string>,
    seller: Option<string>,
    supplier: Option<string>,
    price: Option<string>,
    quantity: Option<string>)

  const SoldByPrefix: string := "Sold by:"
  const SuppliedByPrefix: string := "Supplied by:"

  /** A seller or supplier text cleaned up: white space collapsed and trimmed,
      then the leading `prefix` and the white space after it removed, then
      trimmed again. */
  function MerchantName(text: string, prefix: string): (name: string)
    ensures IsTrimmed(name) && IsCollapsed(name)
    ensures var n := Trim(CollapseSpaces(text));
            if prefix <= n then n == prefix + name || n == prefix + " " + name else n == name
  {
    var n := Trim(CollapseSpaces(text));
    TrimCollapsed(CollapseSpaces(text));
    StripPrefixCollapsed(n, prefix);
    Trim(StripPrefix(n, prefix))
  }

  /** Normalizing is the identity on a prefix, one space and a normalized
      name: the name comes back unchanged. */
  lemma MerchantNameRoundTrip(prefix: string, name: string)
    requires IsTrimmed(prefix) && IsCollapsed(prefix) && prefix != []
    requires IsTrimmed(name) && IsCollapsed(name) && name != []
    ensures MerchantName(prefix + " " + name, prefix) == name
  {
    MerchantOfSpacedName(prefix, name);
    StripSpacedPrefix(prefix, name);
  }

  lemma MerchantOfSpacedName(prefix: string, name: string)
    requires IsTrimmed(prefix) && IsCollapsed(prefix) && prefix != []
    requires IsTrimmed(name) && IsCollapsed(name) && name != []
    ensures MerchantName(prefix + " " + name, prefix) == Trim(StripPrefix(prefix + " " + name, prefix))
  {
    SpacedCollapsed(prefix, name);
    MerchantOfNormal(prefix + " " + name, prefix);
  }

  lemma MerchantOfNormal(x: string, prefix: string)
    requires IsTrimmed(x) && IsCollapsed(x)
    ensures MerchantName(x, prefix) == Trim(StripPrefix(x, prefix))
  {
    CollapsedUnchanged(x);
  }

  lemma StripSpacedPrefix(prefix: string, name: string)
    requires IsTrimmed(name) && name != []
    ensures StripPrefix(prefix + " " + name, prefix) == name
  {
    assert (prefix + " " + name)[|prefix|..] == " " + name;
    TrimStartOneSpace(name);
  }

  /** An optional merchant field: present only when the cleaned-up text is not empty. */
  function OptionalMerchant(element: Option<string>, prefix: string): (r: Option<string>)
    ensures r.None? <==> element.None? || MerchantName(element.value, prefix) == []
    ensures r.Some? ==> r.value == MerchantName(element.value, prefix) && r.value != []
  {
    match element
    case None => None
    case Some(text) =>
      var name := MerchantName(text, prefix);
      if name == [] then None else Some(name)
  }

  /** The item quantity: 1 unless the quantity text is present and not blank,
      in which case `parseInt` must read a number from it. */
  function ParseQuantity(element: Option<string>): (r: Result<int, ParseError>)
    ensures element.None? || AllSpace(element.value) ==> r == Success(1)
    ensures element.Some? && !AllSpace(element.value) ==>
      r == (match ParseInt(Trim(element.value))
            case Some(q) => Success(q)
            case None => Failure(ItemQuantityNotParseable(Trim(element.value))))
  {
    if element.None? then Success(1)
    else
      var quantityText := Trim(element.value);
      if quantityText == [] then Success(1)
      else
        match ParseInt(quantityText)
        case None => Failure(ItemQuantityNotParseable(quantityText))
        case Some(q) => Success(q)
  }

  /** The item description: the trimmed title text, which must not be empty. */
  function ParseDescription(element: Option<string>): (r: Result<string, ParseError>)
    ensures r.Failure? <==> element.None? || AllSpace(element.value)
    ensures r.Failure? ==> r.error == ItemDescriptionNotFound
    ensures r.Success? ==> r.value == Trim(element.value) && r.value != [] && IsTrimmed(r.value)
  {
    var description := if element.Some? then Trim(element.value) else [];
    if description == [] then Failure(ItemDescriptionNotFound) else Success(description)
  }

  /** The unit price: the trimmed price text must be present, not blank, and
      read by `parseFloat` once `$` and `,` are removed. */
  function ParsePrice(element: Option<string>): (r: Result<real, ParseError>)
    ensures element.None? || AllSpace(element.value) ==> r == Failure(ItemPriceNotFound)
    ensures element.Some? && !AllSpace(element.value) ==>
      r == (match ParseMoney(Trim(element.value))
            case Some(price) => Success(price)
            case None => Failure(ItemPriceNotParseable(Trim(element.value))))
  {
    var priceText := if element.Some? then Trim(element.value) else [];
    if priceText == [] then Failure(ItemPriceNotFound)
    else
      match ParseMoney(priceText)
      case None => Failure(ItemPriceNotParseable(priceText))
      case Some(price) => Success(price)
  }

  /** One iteration of `parseItems`: description, seller, supplier, price and
      quantity, in that order; the first missing or unreadable mandatory field
      decides the error. */
  function ParseItem(b: ItemBlock): (r: Result<ItemDetail, ParseError>)
    ensures ParseDescription(b.title).Failure? ==> r == Failure(ParseDescription(b.title).error)
    ensures ParseDescription(b.title).Success? && ParsePrice(b.price).Failure? ==>
      r == Failure(ParsePrice(b.price).error)
    ensures ParseDescription(b.title).Success? && ParsePrice(b.price).Success? && ParseQuantity(b.quantity).Failure? ==>
      r == Failure(ParseQuantity(b.quantity).error)
    ensures r.Success? <==>
      ParseDescription(b.title).Success? && ParsePrice(b.price).Success? && ParseQuantity(b.quantity).Success?
    ensures r.Success? ==>
      && r.value.description == ParseDescription(b.title).value
      && r.value.itemPrice == ParsePrice(b.price).value
      && r.value.quantity == ParseQuantity(b.quantity).value
      && r.value.seller == OptionalMerchant(b.seller, SoldByPrefix)
      && r.value.supplier == OptionalMerchant(b.supplier, SuppliedByPrefix)
  {
    var description :- ParseDescription(b.title);
    var seller := OptionalMerchant(b.seller, SoldByPrefix);
    var supplier := OptionalMerchant(b.supplier, SuppliedByPrefix);
    var itemPrice :- ParsePrice(b.price);
    var quantity :- ParseQuantity(b.quantity);
    Success(ItemDetail(description, seller, supplier, quantity, itemPrice))
  }

  /** `parseItems`: every block in document order; the first failing block's
      error is the result. */
  function ParseItems(blocks: seq<ItemBlock>): (r: Result<seq<ItemDetail>, ParseError>)
    ensures r.Success? <==> forall i | 0 <= i < |blocks| :: ParseItem(blocks[i]).Success?
    ensures r.Success? ==> |r.value| == |blocks|
    ensures r.Success? ==> forall i | 0 <= i < |blocks| :: ParseItem(blocks[i]) == Success(r.value[i])
    ensures r.Failure? ==> exists i | 0 <= i < |blocks| ::
      && ParseItem(blocks[i]) == Failure(r.error)
      && forall j | 0 <= j < i :: ParseItem(blocks[j]).Success?
  {
    var results := seq(|blocks|, i requires 0 <= i < |blocks| => ParseItem(blocks[i]));
    assert forall i | 0 <= i < |blocks| :: results[i] == ParseItem(blocks[i]);
    Gather(results)
  }

  /** The loop of `parseItems` over the per-block outcomes: all values when
      every block succeeds, otherwise the earliest failure. */
  function Gather(results: seq<Result<ItemDetail, ParseError>>): (r: Result<seq<ItemDetail>, ParseError>)
    ensures r.Success? <==> forall i | 0 <= i < |results| :: results[i].Success?
    ensures r.Success? ==> |r.value| == |results|
    ensures r.Success? ==> forall i | 0 <= i < |results| :: results[i] == Success(r.value[i])
    ensures r.Failure? ==> exists i | 0 <= i < |results| ::
      && results[i] == Failure(r.error)
      && forall j | 0 <= j < i :: results[j].Success?
  {
    if |results| == 0 then Success([])
    else
      match results[0]
      case Failure(e) => Failure(e)
      case Success(item) =>
        var rest := Gather(results[1..]);
        assert forall i | 1 <= i < |results| :: results[i] == results[1..][i - 1];
        match rest
        case Failure(e) => Failure(e)
        case Success(items) => Success([item] + items)
  }

  /** A block printed from an item reads back as that item: the title, both
      merchant lines with their prefixes and the quantity come back unchanged,
      and the price is whatever its text reads as (see `PriceRoundTrip`). */
  lemma ItemRoundTrip(description: string, seller: string, supplier: string, quantity: int, priceText: string, price: real)
    requires description != [] && IsTrimmed(description)
    requires seller != [] && IsTrimmed(seller) && IsCollapsed(seller)
    requires supplier != [] && IsTrimmed(supplier) && IsCollapsed(supplier)
    requires ParsePrice(Some(priceText)) == Success(price)
    ensures ParseItem(ItemBlock(Some(description), Some(SoldByPrefix + " " + seller), Some(SuppliedByPrefix + " " + supplier),
                                Some(priceText), Some(IntToString(quantity))))
         == Success(ItemDetail(description, Some(seller), Some(supplier), quantity, price))
  {
    var b := ItemBlock(Some(description), Some(SoldByPrefix + " " + seller), Some(SuppliedByPrefix + " " + supplier),
                       Some(priceText), Some(IntToString(quantity)));
    var item := ItemDetail(description, Some(seller), Some(supplier), quantity, price);
    assert OptionalMerchant(b.seller, SoldByPrefix) == item.seller by {
      PrefixesNormal();
      MerchantRoundTrip(SoldByPrefix, seller);
    }
    assert OptionalMerchant(b.supplier, SuppliedByPrefix) == item.supplier by {
      PrefixesNormal();
      MerchantRoundTrip(SuppliedByPrefix, supplier);
    }
    assert ParseQuantity(b.quantity) == Success(item.quantity) by { QuantityRoundTrip(quantity); }
    ParseItemOf(b, item);
  }

  lemma ParseItemOf(b: ItemBlock, item: ItemDetail)
    requires ParseDescription(b.title) == Success(item.description)
    requires OptionalMerchant(b.seller, SoldByPrefix) == item.seller
    requires OptionalMerchant(b.supplier, SuppliedByPrefix) == item.supplier
    requires ParsePrice(b.price) == Success(item.itemPrice)
    requires ParseQuantity(b.quantity) == Success(item.quantity)
    ensures ParseItem(b) == Success(item)
  {
  }

  lemma MerchantRoundTrip(prefix: string, name: string)
    requires IsTrimmed(prefix) && IsCollapsed(prefix) && prefix != []
    requires IsTrimmed(name) && IsCollapsed(name) && name != []
    ensures OptionalMerchant(Some(prefix + " " + name), prefix) == Some(name)
  {
    MerchantNameRoundTrip(prefix, name);
  }

  /** A printed dollar amount reads back as its value. */
  lemma PriceRoundTrip(cents: int)
    ensures ParsePrice(Some(DollarText(cents))) == Success(cents as real / 100.0)
  {
    DollarTextTrimmed(cents);
    ParseMoneyRoundTrip(cents);
  }

  /** A printed quantity reads back as itself. */
  lemma QuantityRoundTrip(quantity: int)
    ensures ParseQuantity(Some(IntToString(quantity))) == Success(quantity)
  {
    IntTextTrimmed(quantity);
    ParseIntRoundTrip(quantity, "");
    assert IntToString(quantity) + "" == IntToString(quantity);
  }

  lemma PrefixesNormal()
    ensures IsTrimmed(SoldByPrefix) && IsCollapsed(SoldByPrefix)
    ensures IsTrimmed(SuppliedByPrefix) && IsCollapsed(SuppliedByPrefix)
  {
    OneInnerSpace(SoldByPrefix, 4);
    OneInnerSpace(SuppliedByPrefix, 8);
  }

  /** Text whose only white space is one plain space inside it. */
  lemma OneInnerSpace(s: string, k: nat)
    requires 0 < k < |s| - 1 && s[k] == ' '
    requires forall i | 0 <= i < |s| && i != k :: !IsSpace(s[i])
    ensures IsTrimmed(s) && IsCollapsed(s)
  {
  }

  lemma IntTextTrimmed(q: int)
    ensures IsTrimmed(IntToString(q)) && IntToString(q) != []
  {
    var ds := NatToString(Magnitude(q));
    var t := IntToString(q);
    assert t[|t| - 1] == ds[|ds| - 1];
    assert IsDigit(ds[0]) && IsDigit(ds[|ds| - 1]);
    assert t[0] == '-' || t[0] == ds[0];
  }
}

=== FILE: js_numbers.dfy ===
/** JavaScript's `parseFloat` and `parseInt(_, 10)`: both skip leading white
    space, read the longest numeric prefix and ignore the rest of the text.
    `None` stands for the `NaN` they return when there is no numeric prefix.
    Numbers are exact: `real` for `parseFloat`, `int` for `parseInt`.
    The scanners work on positions in the text rather than on its suffixes. */
module JsNumbers {
  import opened Wrappers
  import opened JsText

  predicate IsDigit(c: char) {
    '0' <= c <= '9'
  }

  /** `s[lo..hi]` is a run of decimal digits. */
  predicate DigitsIn(s: string, lo: nat, hi: nat) {
    lo <= hi <= |s| && forall k | lo <= k < hi :: IsDigit(s[k])
  }

  /** Value of the decimal digits `s[lo..hi]`, most significant digit first. */
  function DigitsValue(s: string, lo: nat, hi: nat): nat
    requires DigitsIn(s, lo, hi)
    decreases hi - lo
  {
    if hi == lo then 0 else 10 * DigitsValue(s, lo, hi - 1) + (s[hi - 1] as int - '0' as int)
  }

  /** `s[lo..hi]` is the whole run of digits that starts at `lo`, and its
      value is `v`. */
  predicate DigitField(s: string, lo: nat, hi: nat, v: nat) {
    && DigitsIn(s, lo, hi) && DigitRun(s, lo) == hi - lo && DigitsValue(s, lo, hi) == v
  }

  /** Length of the run of decimal digits that starts at position `i` of `s`. */
  function DigitRun(s: string, i: nat): (n: nat)
    requires i <= |s|
    ensures DigitsIn(s, i, i + n)
    ensures i + n < |s| ==> !IsDigit(s[i + n])
    decreases |s| - i
  {
    if i < |s| && IsDigit(s[i]) then 1 + DigitRun(s, i + 1) else 0
  }

  /** `v` followed by `n` zero digits, that is `v` times ten to the `n`. */
  function Shifted(v: nat, n: nat): nat {
    if n == 0 then v else 10 * Shifted(v, n - 1)
  }

  /** An unsigned decimal literal read exactly: `mantissa` times ten to the
      power `exponent`. */
  datatype Decimal = Decimal(mantissa: nat, exponent: int)

  /** `mantissa` times ten to the power `e`, as an exact real. */
  function ScaledValue(mantissa: nat, e: int): (r: real)
    ensures r >= 0.0
    decreases if e >= 0 then e else -e
  {
    if e == 0 then mantissa as real
    else if e > 0 then 10.0 * ScaledValue(mantissa, e - 1)
    else ScaledValue(mantissa, e + 1) / 10.0
  }

  /** Where the text after an optional `+` or `-` at position `i` begins. */
  function SignEnd(s: string, i: nat): nat
    requires i <= |s|
  {
    if i < |s| && (s[i] == '-' || s[i] == '+') then i + 1 else i
  }

  /** An optional sign at position `i` followed by one or more digits, read as
      an integer; anything after the digits is ignored. */
  function SignedDigits(s: string, i: nat): (r: Option<int>)
    requires i <= |s|
    ensures r.None? <==> !(SignEnd(s, i) < |s| && IsDigit(s[SignEnd(s, i)]))
  {
    var j := SignEnd(s, i);
    var n := DigitRun(s, j);
    if n == 0 then None
    else
      var v: int := DigitsValue(s, j, j + n);
      Some(if i < |s| && s[i] == '-' then -v else v)
  }

  /** The value of the exponent part (`e` or `E`, then signed digits) at
      position `at` of `u`, or 0 when there is none there. */
  function Exponent(u: string, at: nat): int
    requires at <= |u|
  {
    if at < |u| && (u[at] == 'e' || u[at] == 'E') then SignedDigits(u, at + 1).GetOr(0) else 0
  }

  /** From position `i`, `u` begins like an unsigned decimal literal: a digit,
      or a point followed by a digit. */
  predicate StartsDecimal(u: string, i: nat) {
    || (i < |u| && IsDigit(u[i]))
    || (i + 1 < |u| && u[i] == '.' && IsDigit(u[i + 1]))
  }

  /** `parseFloat(s)`: white space, an optional sign, then an unsigned decimal
      literal; anything after the literal is ignored. */
  function ParseFloat(s: string): (r: Option<real>)
    ensures r.None? <==> !StartsDecimal(TrimStart(s), SignEnd(TrimStart(s), 0))
  {
    var t := TrimStart(s);
    match ParseUnsignedDecimal(t, SignEnd(t, 0))
    case None => None
    case Some(d) =>
      var magnitude := ScaledValue(d.mantissa, d.exponent);
      Some(Signed(|t| > 0 && t[0] == '-', magnitude))
  }

  /** The longest unsigned decimal literal at position `i` of `u`: digits with
      an optional fraction (at least one digit in all), then an optional
      exponent. The mantissa is the whole digits followed by the fraction
      digits, read as one integer. */
  function ParseUnsignedDecimal(u: string, i: nat): (r: Option<Decimal>)
    requires i <= |u|
    ensures r.None? <==> !StartsDecimal(u, i)
  {
    var intLen := DigitRun(u, i);
    var point := i + intLen;
    var hasPoint := point < |u| && u[point] == '.';
    var fracStart := if hasPoint then point + 1 else point;
    var fracLen := if hasPoint then DigitRun(u, fracStart) else 0;
    if intLen + fracLen == 0 then None
    else
      var mantissa := Shifted(DigitsValue(u, i, point), fracLen) + DigitsValue(u, fracStart, fracStart + fracLen);
      Some(Decimal(mantissa, Exponent(u, fracStart + fracLen) - fracLen))
  }

  /** `parseInt(s, 10)`: white space, an optional sign, then digits; anything
      after the digits is ignored. */
  function ParseInt(s: string): (r: Option<int>)
    ensures r.None? <==> !(var t := TrimStart(s); SignEnd(t, 0) < |t| && IsDigit(t[SignEnd(t, 0)]))
  {
    SignedDigits(TrimStart(s), 0)
  }

  /** The digit character of `d`. */
  function DigitChar(d: nat): (c: char)
    requires d < 10
    ensures IsDigit(c) && c as int - '0' as int == d
  {
    '0' + d as char
  }

  /** Decimal digits of `n`, without leading zeros. */
  function NatToString(n: nat): (ds: string)
    ensures |ds| > 0 && DigitsIn(ds, 0, |ds|)
    ensures DigitsValue(ds, 0, |ds|) == n
  {
    if n < 10 then [DigitChar(n)]
    else
      var init := NatToString(n / 10);
      var ds := init + [DigitChar(n % 10)];
      DigitsValueMoved(init, 0, |init|, ds, 0, |init|);
      ds
  }

  /** An integer as JavaScript prints it: a minus sign for negatives, then its digits. */
  function IntToString(i: int): string {
    if i < 0 then "-" + NatToString(-i) else NatToString(i)
  }

  /** The absolute value of `i`. */
  function Magnitude(i: int): nat {
    if i < 0 then -i else i
  }

  /** `x` negated when `negative`. */
  function Signed(negative: bool, x: real): real {
    if negative then -x else x
  }

  /** A price as the invoice prints it once `$` is removed: an optional minus,
      whole dollars, a point and exactly two cent digits. */
  function CentsToString(cents: int): string {
    var m := Magnitude(cents);
    SignedFixed(cents < 0, NatToString(m / 100), CentDigits(m))
  }

  /** An optional minus, then whole digits, a point and fraction digits. */
  function SignedFixed(negative: bool, whole: string, frac: string): string {
    MinusIf(negative) + (whole + "." + frac)
  }

  /** A minus sign when `negative`, nothing otherwise. */
  function MinusIf(negative: bool): string {
    if negative then "-" else ""
  }

  /** The two digits of `m % 100`. */
  function CentDigits(m: nat): (ds: string)
    ensures |ds| == 2 && DigitsIn(ds, 0, 2)
    ensures DigitsValue(ds, 0, 2) == m % 100
  {
    [DigitChar(m % 100 / 10), DigitChar(m % 10)]
  }

  /** Digits have the same value wherever they stand. */
  lemma {:induction false} DigitsValueMoved(s: string, lo: nat, hi: nat, t: string, lo2: nat, hi2: nat)
    requires DigitsIn(s, lo, hi) && lo2 <= hi2 <= |t| && hi2 - lo2 == hi - lo
    requires forall k | lo2 <= k < hi2 :: t[k] == s[k - lo2 + lo]
    ensures DigitsIn(t, lo2, hi2)
    ensures DigitsValue(t, lo2, hi2) == DigitsValue(s, lo, hi)
    decreases hi - lo
  {
    forall k | lo2 <= k < hi2
      ensures IsDigit(t[k])
    {
      assert t[k] == s[k - lo2 + lo];
    }
    if lo < hi {
      DigitsValueMoved(s, lo, hi - 1, t, lo2, hi2 - 1);
      assert t[hi2 - 1] == s[hi - 1];
    }
  }

  /** The digit scanner stops exactly at the end of a digit run. */
  lemma {:induction false} DigitRunOfDigits(s: string, i: nat, j: nat)
    requires DigitsIn(s, i, j)
    requires j < |s| ==> !IsDigit(s[j])
    ensures DigitRun(s, i) == j - i
    decreases j - i
  {
    if i < j {
      DigitRunOfDigits(s, i + 1, j);
    }
  }

  /** `ds` stands in `s` from position `at` on. */
  predicate Placed(s: string, at: nat, ds: string) {
    at + |ds| <= |s| && forall k | at <= k < at + |ds| :: s[k] == ds[k - at]
  }

  /** `mid` stands in `pre + mid + post` right after `pre`: the index facts
      the digit scanners need, without unfolding the concatenation. */
  lemma PlacedAt(s: string, pre: string, mid: string, post: string, at: nat)
    requires s == pre + mid + post && at == |pre|
    ensures |s| == at + |mid| + |post| && Placed(s, at, mid)
  {
  }

  /** A run of digits `ds` standing in `s` from `j` to `end`, followed by a
      non-digit or the end of the text, is the whole digit run there and reads
      as the value of `ds`. */
  lemma DigitsAt(s: string, j: nat, end: nat, ds: string)
    requires DigitsIn(ds, 0, |ds|) && Placed(s, j, ds) && end == j + |ds|
    requires end < |s| ==> !IsDigit(s[end])
    ensures DigitField(s, j, end, DigitsValue(ds, 0, |ds|))
  {
    DigitsValueMoved(ds, 0, |ds|, s, j, end);
    DigitRunOfDigits(s, j, end);
  }

  /** Text that starts with a sign or a digit has nothing for `trimStart` to drop. */
  lemma TrimStartUnchanged(s: string)
    requires |s| > 0 && (s[0] == '-' || s[0] == '+' || IsDigit(s[0]))
    ensures TrimStart(s) == s
  {
    assert SpaceRun(s, 0) == 0;
  }

  /** `parseInt` reads back a printed integer, whatever non-digit text follows it. */
  lemma ParseIntRoundTrip(i: int, rest: string)
    requires !(|rest| > 0 && IsDigit(rest[0]))
    ensures ParseInt(IntToString(i) + rest) == Some(i)
  {
    var ds := NatToString(Magnitude(i));
    var sign := MinusIf(i < 0);
    var s := IntToString(i) + rest;
    var j := |sign|;
    var e := j + |ds|;
    assert s == sign + ds + rest;
    PlacedAt(s, sign, ds, rest, j);
    PlacedAt(s, sign + ds, rest, [], e);
    TrimStartUnchanged(s);
    assert SignEnd(s, 0) == j;
    DigitsAt(s, j, e, ds);
    SignedDigitsOfField(s, 0, j, e, DigitsValue(ds, 0, |ds|));
  }

  /** `parseInt` reads an optional `+` or `-` and a run of digits, leading
      zeros included, as that integer, whatever non-digit text follows. */
  lemma ParseIntWhole(sign: string, ds: string, rest: string)
    requires sign == "" || sign == "+" || sign == "-"
    requires |ds| > 0 && DigitsIn(ds, 0, |ds|)
    requires !(|rest| > 0 && IsDigit(rest[0]))
    ensures ParseInt(sign + ds + rest)
            == Some(if sign == "-" then -(DigitsValue(ds, 0, |ds|) as int) else DigitsValue(ds, 0, |ds|))
  {
    var s := sign + ds + rest;
    var j := |sign|;
    var e := j + |ds|;
    var v := DigitsValue(ds, 0, |ds|);
    var negative := sign == "-";
    SignedRunLayout(s, sign, ds, rest, j, e, v, negative);
    ParseIntOfField(s, j, e, v, negative);
  }

  /** `s` has nothing to trim and holds, from position 0, an optional sign
      (a minus exactly when `negative`) and then the digit field `s[j..end]`
      of value `v`. */
  predicate SignedField(s: string, j: nat, end: nat, v: nat, negative: bool) {
    && TrimStart(s) == s && SignEnd(s, 0) == j && DigitField(s, j, end, v) && j < end
    && (s[0] == '-' <==> negative)
  }

  /** `parseInt` reads a signed digit field as its value, negated after a minus. */
  lemma ParseIntOfField(s: string, j: nat, end: nat, v: nat, negative: bool)
    requires SignedField(s, j, end, v, negative)
    ensures ParseInt(s) == Some(if negative then -(v as int) else v)
  {
    SignedDigitsOfField(s, 0, j, end, v);
  }

  /** Where the sign, the digits and the rest of `sign + ds + rest` stand,
      as `SignedDigits` scans them; kept out of `ParseIntWhole`. */
  lemma SignedRunLayout(s: string, sign: string, ds: string, rest: string, j: nat, e: nat, v: nat, negative: bool)
    requires s == sign + ds + rest && (sign == "" || sign == "+" || sign == "-")
    requires |ds| > 0 && DigitsIn(ds, 0, |ds|)
    requires !(|rest| > 0 && IsDigit(rest[0]))
    requires j == |sign| && e == j + |ds| && v == DigitsValue(ds, 0, |ds|) && negative == (sign == "-")
    ensures SignedField(s, j, e, v, negative)
  {
    PlacedAt(s, sign, ds, rest, j);
    PlacedAt(s, sign + ds, rest, [], e);
    TrimStartUnchanged(s);
    DigitsAt(s, j, e, ds);
  }

  /** White space before a number does not change what `parseInt` reads. */
  lemma ParseIntAfterSpaces(sp: string, s: string)
    requires AllSpace(sp)
    ensures ParseInt(sp + s) == ParseInt(s)
  {
    TrimStartAfterSpaces(sp, s);
  }

  /** White space before a number does not change what `parseFloat` reads. */
  lemma ParseFloatAfterSpaces(sp: string, s: string)
    requires AllSpace(sp)
    ensures ParseFloat(sp + s) == ParseFloat(s)
  {
    TrimStartAfterSpaces(sp, s);
  }

  /** `SignedDigits` reads the digit field that follows the optional sign;
      the unfolding of `SignedDigits`, kept out of `ParseIntRoundTrip`. */
  lemma SignedDigitsOfField(s: string, i: nat, j: nat, end: nat, v: nat)
    requires i <= |s| && SignEnd(s, i) == j && DigitField(s, j, end, v) && j < end
    ensures SignedDigits(s, i) == Some(if i < |s| && s[i] == '-' then -(v as int) else v)
  {
  }

  /** The parts of a fixed-point literal `whole + "." + frac` standing at
      position `i` of `s`. */
  lemma LiteralLayout(s: string, i: nat, whole: string, frac: string, point: nat, fracStart: nat)
    requires Placed(s, i, whole + "." + frac)
    requires point == i + |whole| && fracStart == point + 1
    ensures Placed(s, i, whole) && point < |s| && s[point] == '.' && Placed(s, fracStart, frac)
  {
    var lit := whole + "." + frac;
    forall k | i <= k < point
      ensures s[k] == whole[k - i]
    {
      assert s[k] == lit[k - i];
    }
    assert s[point] == lit[|whole|];
    forall k | fracStart <= k < fracStart + |frac|
      ensures s[k] == frac[k - fracStart]
    {
      assert s[k] == lit[k - i];
    }
  }

  /** A fixed-point literal (whole digits, a point, fraction digits) at
      position `i` of `u`, not followed by a digit or an exponent mark, reads
      as its exact value. */
  lemma FixedPointAt(u: string, i: nat, point: nat, fracStart: nat, fracEnd: nat, whole: string, frac: string, mantissa: nat, e: int)
    requires DigitsIn(whole, 0, |whole|) && |whole| > 0 && DigitsIn(frac, 0, |frac|)
    requires mantissa == Shifted(DigitsValue(whole, 0, |whole|), |frac|) + DigitsValue(frac, 0, |frac|)
    requires Placed(u, i, whole) && point == i + |whole| && point < |u| && u[point] == '.'
    requires Placed(u, fracStart, frac) && fracStart == point + 1 && fracEnd == fracStart + |frac|
    requires fracEnd < |u| ==> !IsDigit(u[fracEnd]) && u[fracEnd] != 'e' && u[fracEnd] != 'E'
    requires e == -(|frac| as int)
    ensures ParseUnsignedDecimal(u, i) == Some(Decimal(mantissa, e))
  {
    DigitsAt(u, i, point, whole);
    DigitsAt(u, fracStart, fracEnd, frac);
    assert Exponent(u, fracEnd) == 0;
    UnsignedDecimalWithPoint(u, i, point, fracStart, fracEnd, |frac|, DigitsValue(whole, 0, |whole|), DigitsValue(frac, 0, |frac|), mantissa, e);
  }

  /** From position `i` of `u`: whole digits of value `a` up to a point at
      `point`, then fraction digits of value `b` from `fracStart` up to
      `fracEnd`, with at least one digit in all, and no exponent. */
  predicate PointedLiteral(u: string, i: nat, point: nat, fracStart: nat, fracEnd: nat, a: nat, b: nat) {
    && point < |u| && u[point] == '.' && fracStart == point + 1
    && DigitField(u, i, point, a) && DigitField(u, fracStart, fracEnd, b)
    && (i < point || fracStart < fracEnd)
    && Exponent(u, fracEnd) == 0
  }

  /** `ParseUnsignedDecimal` reads a pointed literal as its whole and fraction
      digits taken together, scaled down by the number of fraction digits.
      The unfolding of `ParseUnsignedDecimal`, stated over the parts alone. */
  lemma UnsignedDecimalWithPoint(u: string, i: nat, point: nat, fracStart: nat, fracEnd: nat, fracLen: nat, a: nat, b: nat, mantissa: nat, e: int)
    requires PointedLiteral(u, i, point, fracStart, fracEnd, a, b) && fracEnd == fracStart + fracLen
    requires mantissa == Shifted(a, fracLen) + b && e == -(fracLen as int)
    ensures ParseUnsignedDecimal(u, i) == Some(Decimal(mantissa, e))
  {
  }

  /** `parseFloat` reads back a printed price exactly, whatever text follows it
      that does not continue the number. */
  lemma ParseFloatRoundTrip(cents: int, rest: string)
    requires !(|rest| > 0 && (IsDigit(rest[0]) || rest[0] == 'e' || rest[0] == 'E'))
    ensures ParseFloat(CentsToString(cents) + rest) == Some(cents as real / 100.0)
  {
    SignedMagnitude(cents);
    PrintedCents(cents, rest);
  }

  /** Putting the sign back on the magnitude in hundredths gives the value
      (stated for parse results, the form in which it is used). */
  lemma SignedMagnitude(cents: int)
    ensures Some(Signed(cents < 0, ScaledValue(Magnitude(cents), -2))) == Some(cents as real / 100.0)
  {
    CentsScale(Magnitude(cents), -2);
  }

  /** The printed form of `cents` reads back as its sign and the fixed-point
      value of its magnitude. */
  lemma PrintedCents(cents: int, rest: string)
    requires !(|rest| > 0 && (IsDigit(rest[0]) || rest[0] == 'e' || rest[0] == 'E'))
    ensures ParseFloat(CentsToString(cents) + rest)
            == Some(Signed(cents < 0, ScaledValue(Magnitude(cents), -2)))
  {
    var m := Magnitude(cents);
    var s := CentsToString(cents) + rest;
    var whole := NatToString(m / 100);
    var frac := CentDigits(m);
    assert s == SignedFixed(cents < 0, whole, frac) + rest;
    CentsMantissa(m, DigitsValue(whole, 0, |whole|), DigitsValue(frac, 0, |frac|), |frac|);
    SignedLiteral(s, cents < 0, whole, frac, rest, m, -2);
  }

  /** A sign, a fixed-point literal and text that does not continue it: the
      sign and the literal are what `parseFloat` sees. */
  lemma SignedLiteral(s: string, negative: bool, whole: string, frac: string, rest: string, mantissa: nat, e: int)
    requires s == SignedFixed(negative, whole, frac) + rest && e == -(|frac| as int)
    requires DigitsIn(whole, 0, |whole|) && |whole| > 0 && DigitsIn(frac, 0, |frac|)
    requires mantissa == Shifted(DigitsValue(whole, 0, |whole|), |frac|) + DigitsValue(frac, 0, |frac|)
    requires !(|rest| > 0 && (IsDigit(rest[0]) || rest[0] == 'e' || rest[0] == 'E'))
    ensures ParseFloat(s) == Some(Signed(negative, ScaledValue(mantissa, e)))
  {
    var sign := MinusIf(negative);
    var i := |sign|;
    var point := i + |whole|;
    var fracStart := point + 1;
    var fracEnd := fracStart + |frac|;
    PlacedAt(s, sign, whole + "." + frac, rest, i);
    PlacedAt(s, sign + (whole + "." + frac), rest, [], fracEnd);
    LiteralLayout(s, i, whole, frac, point, fracStart);
    assert s[0] == '-' <==> negative;
    TrimStartUnchanged(s);
    assert SignEnd(s, 0) == i;
    FixedPointAt(s, i, point, fracStart, fracEnd, whole, frac, mantissa, e);
    SignedDecimal(s, negative, i, Decimal(mantissa, e));
  }

  /** `parseFloat` on text that starts with an optional minus and then a
      decimal literal: the literal's value, negated after a minus. The
      unfolding of `ParseFloat`, stated over the sign and the literal alone. */
  lemma SignedDecimal(s: string, negative: bool, i: nat, d: Decimal)
    requires |s| > 0 && (s[0] == '-' <==> negative) && TrimStart(s) == s
    requires i <= |s| && SignEnd(s, 0) == i && ParseUnsignedDecimal(s, i) == Some(d)
    ensures ParseFloat(s) == Some(Signed(negative, ScaledValue(d.mantissa, d.exponent)))
  {
  }

  /** `parseFloat` reads an optional minus and a run of digits, followed by
      text that does not continue the number, as that whole number. */
  lemma ParseFloatWhole(negative: bool, ds: string, rest: string)
    requires |ds| > 0 && DigitsIn(ds, 0, |ds|)
    requires !(|rest| > 0 && (IsDigit(rest[0]) || rest[0] == '.' || rest[0] == 'e' || rest[0] == 'E'))
    ensures ParseFloat(MinusIf(negative) + ds + rest) == Some(Signed(negative, DigitsValue(ds, 0, |ds|) as real))
  {
    var sign := MinusIf(negative);
    var s := sign + ds + rest;
    var i := |sign|;
    var e := i + |ds|;
    var v := DigitsValue(ds, 0, |ds|);
    PlacedAt(s, sign, ds, rest, i);
    PlacedAt(s, sign + ds, rest, [], e);
    DigitsAt(s, i, e, ds);
    assert s[0] == '-' <==> negative;
    TrimStartUnchanged(s);
    assert SignEnd(s, 0) == i;
    UnsignedWholeAt(s, i, e, v);
    SignedDecimal(s, negative, i, Decimal(v, 0));
  }

  /** A digit field at position `i` of `u` with no point or exponent mark
      after it reads as its value, unscaled. */
  lemma UnsignedWholeAt(u: string, i: nat, end: nat, v: nat)
    requires DigitField(u, i, end, v) && i < end
    requires end < |u| ==> u[end] != '.' && u[end] != 'e' && u[end] != 'E'
    ensures ParseUnsignedDecimal(u, i) == Some(Decimal(v, 0))
  {
  }

  /** A count of cents is its whole dollars followed by two cent digits. */
  lemma CentsMantissa(m: nat, dollars: nat, centDigits: nat, n: nat)
    requires dollars == m / 100 && centDigits == m % 100 && n == 2
    ensures m == Shifted(dollars, n) + centDigits
  {
    assert Shifted(dollars, 1) == 10 * dollars;
  }

  /** Two fraction digits scale a count of cents down to dollars; the two
      steps of `ScaledValue`, kept out of `SignedMagnitude`. */
  lemma CentsScale(m: nat, e: int)
    requires e == -2
    ensures ScaledValue(m, e) == m as real / 100.0
  {
  }
}

=== FILE: js_text.dfy ===
/** The JavaScript string built-ins the invoice parser relies on: `trim`,
    `replace` of every white-space run `\s+` by one space, `replace` of the
    pattern `^prefix\s*` by nothing, and `split('\n')`, over strings
    modelled as sequences of characters. */
module JsText {

  /** White space as `trim`, `parseFloat`, `parseInt` and the regular-expression
      class `\s` all define it: ECMAScript's WhiteSpace and LineTerminator code points. */
  predicate IsSpace(c: char) {
    || c == '\t' || c == '\n' || c == '\U{000B}' || c == '\U{000C}' || c == '\r'
    || c == ' ' || c == '\U{00A0}' || c == '\U{1680}'
    || ('\U{2000}' <= c <= '\U{200A}')
    || c == '\U{2028}' || c == '\U{2029}' || c == '\U{202F}' || c == '\U{205F}'
    || c == '\U{3000}' || c == '\U{FEFF}'
  }

  predicate AllSpace(s: string) {
    forall i | 0 <= i < |s| :: IsSpace(s[i])
  }

  /** Neither starts nor ends with white space. */
  predicate IsTrimmed(s: string) {
    |s| > 0 ==> !IsSpace(s[0]) && !IsSpace(s[|s| - 1])
  }

  /** The shape `replace(/\s+/g, ' ')` leaves: every white-space character is a
      plain space, and no two of them are adjacent. */
  predicate IsCollapsed(s: string) {
    && (forall i | 0 <= i < |s| && IsSpace(s[i]) :: s[i] == ' ')
    && (forall i, j | 0 <= i < |s| && 0 <= j < |s| && j == i + 1 :: !IsSpace(s[i]) || !IsSpace(s[j]))
  }

  /** The non-space characters of `s`, in order. */
  function Visible(s: string): string {
    if |s| == 0 then [] else (if IsSpace(s[0]) then [] else [s[0]]) + Visible(s[1..])
  }

  /** Length of the white-space run that starts at position `i` of `s`. */
  function SpaceRun(s: string, i: nat): (n: nat)
    requires i <= |s|
    ensures i + n <= |s| && forall k | i <= k < i + n :: IsSpace(s[k])
    ensures i + n < |s| ==> !IsSpace(s[i + n])
    decreases |s| - i
  {
    if i < |s| && IsSpace(s[i]) then 1 + SpaceRun(s, i + 1) else 0
  }

  /** `trimStart`: drops the leading white-space run. */
  function TrimStart(s: string): (r: string)
    ensures |r| <= |s| && forall i | 0 <= i < |s| - |r| :: IsSpace(s[i])
    ensures |r| > 0 ==> !IsSpace(r[0])
  {
    var n := SpaceRun(s, 0);
    if n == 0 then s else s[n..]
  }

  /** The scanner stops exactly at the end of a white-space run. */
  lemma {:induction false} SpaceRunOf(s: string, i: nat, j: nat)
    requires i <= j <= |s| && forall k | i <= k < j :: IsSpace(s[k])
    requires j < |s| ==> !IsSpace(s[j])
    ensures SpaceRun(s, i) == j - i
    decreases j - i
  {
    if i < j {
      SpaceRunOf(s, i + 1, j);
    }
  }

  /** `trimStart` drops white space put in front of a text along with the
      text's own leading white space. */
  lemma TrimStartAfterSpaces(sp: string, s: string)
    requires AllSpace(sp)
    ensures TrimStart(sp + s) == TrimStart(s)
  {
    var u := sp + s;
    var n := SpaceRun(s, 0);
    var j := |sp| + n;
    forall k | 0 <= k < j
      ensures IsSpace(u[k])
    {
      if k < |sp| {
        assert u[k] == sp[k];
      } else {
        assert u[k] == s[k - |sp|];
      }
    }
    if j < |u| {
      assert u[j] == s[n];
    }
    SpaceRunOf(u, 0, j);
    if j == 0 {
      assert sp == [];
      assert u == s;
    } else {
      assert u[j..] == s[n..];
    }
  }

  /** Length of the white-space run that ends just before position `j` of
      `s`, going back no further than `lo`. */
  function SpaceRunBefore(s: string, lo: nat, j: nat): (n: nat)
    requires lo <= j <= |s|
    ensures lo + n <= j && forall k | j - n <= k < j :: IsSpace(s[k])
    ensures lo + n < j ==> !IsSpace(s[j - n - 1])
    decreases j - lo
  {
    if lo < j && IsSpace(s[j - 1]) then 1 + SpaceRunBefore(s, lo, j - 1) else 0
  }

  /** Where `trim` cuts: after the leading white-space run and before the
      trailing one. */
  function TrimBounds(s: string): (ab: (nat, nat))
    ensures ab.0 <= ab.1 <= |s|
    ensures (forall i | 0 <= i < ab.0 :: IsSpace(s[i])) && (ab.0 < |s| ==> !IsSpace(s[ab.0]))
    ensures (forall i | ab.1 <= i < |s| :: IsSpace(s[i])) && (ab.0 < ab.1 ==> !IsSpace(s[ab.1 - 1]))
  {
    var a := SpaceRun(s, 0);
    (a, |s| - SpaceRunBefore(s, a, |s|))
  }

  /** `trim`: the text between the leading and the trailing white-space runs. */
  function Trim(s: string): (r: string)
    ensures IsTrimmed(r)
    ensures r == [] <==> AllSpace(s)
    ensures IsTrimmed(s) ==> r == s
    ensures exists a, b | 0 <= a <= b <= |s| :: r == s[a..b] && AllSpace(s[..a]) && AllSpace(s[b..])
  {
    var (a, b) := TrimBounds(s);
    TrimBetween(s, a, b);
    EndsAllSpace(s, a, b);
    s[a..b]
  }

  lemma EndsAllSpace(s: string, a: nat, b: nat)
    requires a <= b <= |s|
    requires (forall i | 0 <= i < a :: IsSpace(s[i])) && (forall i | b <= i < |s| :: IsSpace(s[i]))
    ensures AllSpace(s[..a]) && AllSpace(s[b..])
  {
    assert forall i | 0 <= i < |s| - b :: s[b..][i] == s[b + i];
  }

  /** `trim` is the only way to cut white space off both ends and leave a
      trimmed text. */
  lemma TrimOf(s: string, a: nat, b: nat)
    requires a <= b <= |s| && AllSpace(s[..a]) && AllSpace(s[b..]) && IsTrimmed(s[a..b])
    ensures Trim(s) == s[a..b]
  {
    if a == b {
      assert forall i | 0 <= i < |s| :: IsSpace(s[i]) by {
        forall i | 0 <= i < |s| ensures IsSpace(s[i]) {
          if i < a { assert s[i] == s[..a][i]; } else { assert s[i] == s[b..][i - b]; }
        }
      }
    } else {
      assert s[a] == s[a..b][0] && s[b - 1] == s[a..b][b - a - 1];
    }
  }

  /** `trim` of white space, a trimmed text and white space is that text. */
  lemma TrimOfParts(s: string, pre: string, mid: string, post: string)
    requires s == pre + mid + post && AllSpace(pre) && AllSpace(post) && IsTrimmed(mid)
    ensures Trim(s) == mid
  {
    var a, b := |pre|, |pre| + |mid|;
    assert s[..a] == pre && s[a..b] == mid && s[b..] == post;
    TrimOf(s, a, b);
  }

  /** The pieces `trim` cuts a text into. */
  lemma TrimParts(p: string) returns (pre: string, post: string)
    ensures p == pre + Trim(p) + post && AllSpace(pre) && AllSpace(post) && IsTrimmed(Trim(p))
  {
    var a, b :| 0 <= a <= b <= |p| && Trim(p) == p[a..b] && AllSpace(p[..a]) && AllSpace(p[b..]);
    pre, post := p[..a], p[b..];
    assert p == pre + p[a..b] + post;
  }

  /** Regrouping one character onto the front part; stated apart so that the
      proof of `TrimCons` sees the three parts without sequence reasoning. */
  lemma ConsParts(c: char, pre: string, mid: string, post: string)
    ensures [c] + (pre + mid + post) == ([c] + pre) + mid + post
  {
  }

  /** Regrouping one character onto the back part, for `TrimSnoc`. */
  lemma SnocParts(pre: string, mid: string, post: string, c: char)
    ensures (pre + mid + post) + [c] == pre + mid + (post + [c])
  {
  }

  lemma SpacesAppend(p: string, q: string)
    requires AllSpace(p) && AllSpace(q)
    ensures AllSpace(p + q)
  {
    assert forall i | |p| <= i < |p + q| :: (p + q)[i] == q[i - |p|];
  }

  /** White space before a text does not change what `trim` returns. */
  lemma TrimCons(c: char, p: string)
    requires IsSpace(c)
    ensures Trim([c] + p) == Trim(p)
  {
    var pre, post := TrimParts(p);
    SpacesAppend([c], pre);
    ConsParts(c, pre, Trim(p), post);
    TrimOfParts([c] + p, [c] + pre, Trim(p), post);
  }

  /** White space after a text does not change what `trim` returns. */
  lemma TrimSnoc(p: string, c: char)
    requires IsSpace(c)
    ensures Trim(p + [c]) == Trim(p)
  {
    var pre, post := TrimParts(p);
    SpacesAppend(post, [c]);
    SnocParts(pre, Trim(p), post, c);
    TrimOfParts(p + [c], pre, Trim(p), post + [c]);
  }

  /** Trimming keeps every visible character, in order. */
  lemma TrimVisible(s: string)
    ensures Visible(Trim(s)) == Visible(s)
  {
    var (a, b) := TrimBounds(s);
    TrimBetweenVisible(s, a, b);
  }

  /** Trimming collapsed text leaves it collapsed. */
  lemma TrimCollapsed(s: string)
    requires IsCollapsed(s)
    ensures IsCollapsed(Trim(s))
  {
    var (a, b) := TrimBounds(s);
    InfixCollapsed(s, a, b);
  }

  /** Trimming introduces no character that was not there. */
  lemma TrimKeepsOut(s: string, c: char)
    requires c !in s
    ensures c !in Trim(s)
  {
    var (a, b) := TrimBounds(s);
    assert forall i | 0 <= i < b - a :: s[a..b][i] == s[a + i];
  }

  /** What `Trim` needs of the cut points it chooses. */
  lemma TrimBetween(s: string, a: nat, b: nat)
    requires a <= b <= |s|
    requires (forall i | 0 <= i < a :: IsSpace(s[i])) && (a < |s| ==> !IsSpace(s[a]))
    requires (forall i | b <= i < |s| :: IsSpace(s[i])) && (a < b ==> !IsSpace(s[b - 1]))
    ensures IsTrimmed(s[a..b])
    ensures s[a..b] == [] <==> AllSpace(s)
    ensures IsTrimmed(s) ==> s[a..b] == s
  {
    TrimBetweenEmpty(s, a, b);
    TrimBetweenTrimmed(s, a, b);
  }

  lemma TrimBetweenTrimmed(s: string, a: nat, b: nat)
    requires a <= b <= |s|
    requires (forall i | 0 <= i < a :: IsSpace(s[i])) && (a < |s| ==> !IsSpace(s[a]))
    requires (forall i | b <= i < |s| :: IsSpace(s[i])) && (a < b ==> !IsSpace(s[b - 1]))
    ensures IsTrimmed(s) ==> s[a..b] == s
  {
  }

  lemma TrimBetweenEmpty(s: string, a: nat, b: nat)
    requires a <= b <= |s|
    requires (forall i | 0 <= i < a :: IsSpace(s[i])) && (a < |s| ==> !IsSpace(s[a]))
    requires forall i | b <= i < |s| :: IsSpace(s[i])
    ensures a == b <==> AllSpace(s)
  {
    if a == b {
      assert s == s[..a] + s[b..];
    }
  }

  lemma TrimBetweenVisible(s: string, a: nat, b: nat)
    requires a <= b <= |s|
    requires (forall i | 0 <= i < a :: IsSpace(s[i])) && (forall i | b <= i < |s| :: IsSpace(s[i]))
    ensures Visible(s[a..b]) == Visible(s)
  {
    var pre, mid, post := s[..a], s[a..b], s[b..];
    SplitThree(s, a, b, pre, mid, post);
    VisibleAfterSpaces(pre, mid + post);
    VisibleAppend(mid, post);
    VisibleOfSpaces(post);
  }

  /** Cutting `s` at `a` and `b`: white space before `a` and from `b` on stays
      white space, and the three pieces put back together give `s`. */
  lemma SplitThree(s: string, a: nat, b: nat, pre: string, mid: string, post: string)
    requires a <= b <= |s| && pre == s[..a] && mid == s[a..b] && post == s[b..]
    requires (forall i | 0 <= i < a :: IsSpace(s[i])) && (forall i | b <= i < |s| :: IsSpace(s[i]))
    ensures AllSpace(pre) && AllSpace(post) && pre + (mid + post) == s
  {
    assert forall i | 0 <= i < |post| :: post[i] == s[b + i];
    assert pre + (mid + post) == s by {
      assert mid + post == s[a..];
    }
  }

  /** Every piece of a collapsed string is collapsed. */
  lemma InfixCollapsed(s: string, a: nat, b: nat)
    requires a <= b <= |s| && IsCollapsed(s)
    ensures IsCollapsed(s[a..b])
  {
    var t := s[a..b];
    forall i | 0 <= i < |t| && IsSpace(t[i]) ensures t[i] == ' ' {
      assert t[i] == s[a + i];
    }
    forall i, j | 0 <= i < |t| && 0 <= j < |t| && j == i + 1 ensures !IsSpace(t[i]) || !IsSpace(t[j]) {
      assert t[i] == s[a + i] && t[j] == s[a + j];
    }
  }

  lemma {:induction false} VisibleAppend(p: string, q: string)
    ensures Visible(p + q) == Visible(p) + Visible(q)
    decreases |p|
  {
    if |p| > 0 {
      assert (p + q)[1..] == p[1..] + q;
      VisibleAppend(p[1..], q);
    } else {
      assert p + q == q;
    }
  }

  lemma {:induction false} VisibleOfSpaces(p: string)
    requires AllSpace(p)
    ensures Visible(p) == []
    decreases |p|
  {
    if |p| > 0 {
      VisibleOfSpaces(p[1..]);
    }
  }

  /** The words of `s`: its maximal runs of non-space characters, in order. */
  function Words(s: string): (w: seq<string>)
    ensures |s| > 0 && !IsSpace(s[0]) ==> |w| > 0
    decreases |s|
  {
    if |s| == 0 then []
    else if IsSpace(s[0]) then Words(s[1..])
    else
      var rest := Words(s[1..]);
      if |s| > 1 && !IsSpace(s[1]) then [[s[0]] + rest[0]] + rest[1..] else [[s[0]]] + rest
  }

  /** White space in front of a text adds no word. */
  lemma {:induction false} WordsAfterSpaces(p: string, q: string)
    requires AllSpace(p)
    ensures Words(p + q) == Words(q)
    decreases |p|
  {
    if |p| > 0 {
      assert (p + q)[1..] == p[1..] + q;
      WordsAfterSpaces(p[1..], q);
    } else {
      assert p + q == q;
    }
  }

  /** White space after a text adds no word. */
  lemma {:induction false} WordsBeforeSpaces(p: string, q: string)
    requires AllSpace(q)
    ensures Words(p + q) == Words(p)
    decreases |p|
  {
    if |p| == 0 {
      assert p + q == q + [];
      WordsAfterSpaces(q, []);
    } else {
      assert (p + q)[1..] == p[1..] + q;
      assert (p + q)[0] == p[0];
      assert |p| > 1 ==> (p + q)[1] == p[1];
      assert |p| == 1 && |q| > 0 ==> (p + q)[1] == q[0];
      WordsBeforeSpaces(p[1..], q);
    }
  }

  /** Trimming keeps the words. */
  lemma TrimWords(s: string)
    ensures Words(Trim(s)) == Words(s)
  {
    var (a, b) := TrimBounds(s);
    var pre, mid, post := s[..a], s[a..b], s[b..];
    SplitThree(s, a, b, pre, mid, post);
    WordsAfterSpaces(pre, mid + post);
    WordsBeforeSpaces(mid, post);
  }

  /** `replace(/\s+/g, ' ')`: every maximal white-space run becomes one space. */
  function CollapseSpaces(s: string): (r: string)
    ensures CollapseOf(r, s)
    decreases |s|
  {
    if |s| == 0 then []
    else if IsSpace(s[0]) then
      var t := TrimStart(s);
      var c := CollapseSpaces(t);
      LeadingRun(s);
      CollapseSpaceStep(s, s[..|s| - |t|], t, c);
      " " + c
    else
      var c := CollapseSpaces(s[1..]);
      CollapseCharStep(s, c);
      [s[0]] + c
  }

  /** `trimStart` cuts a text into a white-space run and the rest. */
  lemma LeadingRun(s: string)
    ensures |TrimStart(s)| <= |s|
    ensures s == s[..|s| - |TrimStart(s)|] + TrimStart(s) && AllSpace(s[..|s| - |TrimStart(s)|])
    ensures |s| > 0 && IsSpace(s[0]) ==> |TrimStart(s)| < |s|
  {
    var n := SpaceRun(s, 0);
    assert s == s[..n] + s[n..];
  }

  /** What `CollapseSpaces` promises of its result `r` on the text `s`. */
  predicate CollapseOf(r: string, s: string) {
    && IsCollapsed(r)
    && Words(r) == Words(s)
    && (|r| == 0 <==> |s| == 0)
    && (|r| > 0 ==> r[0] == (if IsSpace(s[0]) then ' ' else s[0]))
    && (|r| > 0 ==> r[|r| - 1] == (if IsSpace(s[|s| - 1]) then ' ' else s[|s| - 1]))
  }

  /** One step of `CollapseSpaces` at a white-space run. */
  lemma CollapseSpaceStep(s: string, pre: string, t: string, c: string)
    requires s == pre + t && |pre| > 0 && AllSpace(pre) && (|t| > 0 ==> !IsSpace(t[0]))
    requires CollapseOf(c, t)
    ensures CollapseOf(" " + c, s)
  {
    ConsCollapsed(' ', c);
    WordsSpaceCons(c);
    WordsAfterSpaces(pre, t);
    assert s[0] == pre[0];
    if |t| > 0 {
      assert s[|s| - 1] == t[|t| - 1];
    } else {
      assert s[|s| - 1] == pre[|pre| - 1];
    }
  }

  /** One step of `CollapseSpaces` at a visible character. */
  lemma CollapseCharStep(s: string, c: string)
    requires |s| > 0 && !IsSpace(s[0])
    requires CollapseOf(c, s[1..])
    ensures CollapseOf([s[0]] + c, s)
  {
    ConsCollapsed(s[0], c);
    WordsVisibleCons(s[0], c, s[1..]);
    assert [s[0]] + s[1..] == s;
  }

  lemma WordsSpaceCons(c: string)
    ensures Words(" " + c) == Words(c)
  {
    assert (" " + c)[1..] == c;
  }

  /** A visible character put before two texts with the same words, which
      both start with white space or both do not, gives the same words. */
  lemma WordsVisibleCons(x: char, c: string, t: string)
    requires !IsSpace(x) && Words(c) == Words(t)
    requires |c| == 0 <==> |t| == 0
    requires |c| > 0 ==> (IsSpace(c[0]) <==> IsSpace(t[0]))
    ensures Words([x] + c) == Words([x] + t)
  {
    assert ([x] + c)[1..] == c && ([x] + t)[1..] == t;
    assert |c| > 0 ==> ([x] + c)[1] == c[0] && ([x] + t)[1] == t[0];
  }

  /** Collapsing keeps every visible character, in order. */
  lemma {:induction false} CollapseVisible(s: string)
    ensures Visible(CollapseSpaces(s)) == Visible(s)
    decreases |s|
  {
    if |s| > 0 {
      if IsSpace(s[0]) {
        var t := TrimStart(s);
        LeadingRun(s);
        CollapseVisible(t);
        VisibleAfterSpaces(s[..|s| - |t|], t);
        VisibleSpaceCons(CollapseSpaces(t));
      } else {
        CollapseVisible(s[1..]);
        VisibleCharCons(s[0], CollapseSpaces(s[1..]));
        VisibleCharCons(s[0], s[1..]);
        assert [s[0]] + s[1..] == s;
      }
    }
  }

  lemma VisibleSpaceCons(c: string)
    ensures Visible(" " + c) == Visible(c)
  {
    assert (" " + c)[1..] == c;
  }

  lemma VisibleCharCons(x: char, c: string)
    requires !IsSpace(x)
    ensures Visible([x] + c) == [x] + Visible(c)
  {
    assert ([x] + c)[1..] == c;
  }

  /** A character put before a collapsed text keeps it collapsed unless it
      is white space that is not a plain space or precedes more white space. */
  lemma ConsCollapsed(x: char, c: string)
    requires IsCollapsed(c)
    requires IsSpace(x) ==> x == ' ' && (|c| > 0 ==> !IsSpace(c[0]))
    ensures IsCollapsed([x] + c)
  {
    var r := [x] + c;
    forall i | 0 <= i < |r| && IsSpace(r[i]) ensures r[i] == ' ' {
      if i > 0 { assert r[i] == c[i - 1]; }
    }
    forall i, j | 0 <= i < |r| && 0 <= j < |r| && j == i + 1 ensures !IsSpace(r[i]) || !IsSpace(r[j]) {
      assert r[j] == c[j - 1];
      if i > 0 { assert r[i] == c[i - 1]; }
    }
  }

  /** Collapsing text that is already collapsed changes nothing. */
  lemma {:induction false} CollapsedUnchanged(s: string)
    requires IsCollapsed(s)
    ensures CollapseSpaces(s) == s
    decreases |s|
  {
    if |s| > 0 {
      InfixCollapsed(s, 1, |s|);
      CollapsedUnchanged(s[1..]);
      CollapsedHead(s);
    }
  }

  /** One step of `CollapsedUnchanged`: when the tail of a collapsed text
      collapses to itself, so does the whole text. */
  lemma CollapsedHead(s: string)
    requires |s| > 0 && IsCollapsed(s) && CollapseSpaces(s[1..]) == s[1..]
    ensures CollapseSpaces(s) == s
  {
    if IsSpace(s[0]) {
      assert SpaceRun(s, 0) == 1 by {
        assert |s| > 1 ==> !IsSpace(s[1]);
        assert SpaceRun(s, 0) == 1 + SpaceRun(s, 1);
      }
      assert TrimStart(s) == s[1..];
      assert s == " " + s[1..];
    } else {
      assert s == [s[0]] + s[1..];
    }
  }

  lemma {:induction false} VisibleAfterSpaces(p: string, q: string)
    requires AllSpace(p)
    ensures Visible(p + q) == Visible(q)
    decreases |p|
  {
    if |p| > 0 {
      assert (p + q)[1..] == p[1..] + q;
      VisibleAfterSpaces(p[1..], q);
    } else {
      assert p + q == q;
    }
  }

  /** `replace` of the pattern `^prefix\s*` by nothing, for a prefix with no
      regular-expression metacharacters: drops the prefix and the white
      space after it, if present. */
  function StripPrefix(s: string, prefix: string): (r: string)
    ensures prefix <= s ==> |prefix| + |r| <= |s| && r == s[|s| - |r|..]
    ensures prefix <= s ==> AllSpace(s[|prefix|..|s| - |r|]) && (|r| > 0 ==> !IsSpace(r[0]))
    ensures !(prefix <= s) ==> r == s
  {
    if prefix <= s then TrimStart(s[|prefix|..]) else s
  }

  /** On a trimmed, collapsed text, dropping a prefix leaves a trimmed,
      collapsed remainder that the prefix and at most one space restore. */
  lemma StripPrefixCollapsed(s: string, prefix: string)
    requires IsTrimmed(s) && IsCollapsed(s)
    ensures IsTrimmed(StripPrefix(s, prefix)) && IsCollapsed(StripPrefix(s, prefix))
    ensures prefix <= s ==> s == prefix + StripPrefix(s, prefix) || s == prefix + " " + StripPrefix(s, prefix)
    ensures !(prefix <= s) ==> StripPrefix(s, prefix) == s
  {
    if prefix <= s {
      StripPresentPrefix(s, prefix);
    } else {
      assert StripPrefix(s, prefix) == s;
    }
  }

  lemma StripPresentPrefix(s: string, prefix: string)
    requires IsTrimmed(s) && IsCollapsed(s) && prefix <= s
    ensures IsTrimmed(StripPrefix(s, prefix)) && IsCollapsed(StripPrefix(s, prefix))
    ensures s == prefix + StripPrefix(s, prefix) || s == prefix + " " + StripPrefix(s, prefix)
  {
    var rest := s[|prefix|..];
    SuffixCollapsed(s, |prefix|);
    DropCollapsed(rest);
    StripPresentShape(s, prefix);
  }

  lemma StripPresentShape(s: string, prefix: string)
    requires prefix <= s
    requires s[|prefix|..] == TrimStart(s[|prefix|..]) || s[|prefix|..] == " " + TrimStart(s[|prefix|..])
    ensures s == prefix + StripPrefix(s, prefix) || s == prefix + " " + StripPrefix(s, prefix)
  {
    var rest := s[|prefix|..];
    PrefixRest(s, prefix);
    PrefixShape(s, prefix, rest, TrimStart(rest));
  }

  /** A present prefix and the text after it make up the whole text; stated
      apart so that `StripPresentShape` can rewrite `s` by it. */
  lemma PrefixRest(s: string, prefix: string)
    requires prefix <= s
    ensures s == prefix + s[|prefix|..]
  {
  }

  lemma SuffixCollapsed(s: string, k: nat)
    requires k <= |s| && IsTrimmed(s) && IsCollapsed(s)
    ensures IsCollapsed(s[k..]) && (k < |s| ==> !IsSpace(s[k..][|s| - k - 1]))
  {
    InfixCollapsed(s, k, |s|);
    assert k < |s| ==> s[k..][|s| - k - 1] == s[|s| - 1];
  }

  lemma PrefixShape(s: string, prefix: string, rest: string, r: string)
    requires s == prefix + rest
    requires rest == r || rest == " " + r
    ensures s == prefix + r || s == prefix + " " + r
  {
    if rest != r {
      assert prefix + (" " + r) == prefix + " " + r;
    }
  }

  /** Dropping the leading space of a collapsed text that does not end in
      white space leaves a trimmed, collapsed text. */
  lemma DropCollapsed(t: string)
    requires IsCollapsed(t) && (|t| > 0 ==> !IsSpace(t[|t| - 1]))
    ensures IsTrimmed(TrimStart(t)) && IsCollapsed(TrimStart(t))
    ensures t == TrimStart(t) || t == " " + TrimStart(t)
  {
    var r := TrimStart(t);
    TrimStartCollapsed(t);
    if t != r {
      assert r == t[1..];
      InfixCollapsed(t, 1, |t|);
    }
  }

  /** Two normalized words joined by one space give a normalized text. */
  lemma SpacedCollapsed(p: string, q: string)
    requires IsTrimmed(p) && IsCollapsed(p) && IsTrimmed(q) && IsCollapsed(q) && p != [] && q != []
    ensures IsCollapsed(p + " " + q) && IsTrimmed(p + " " + q)
  {
    var x := p + " " + q;
    forall i | 0 <= i < |x| && IsSpace(x[i]) ensures x[i] == ' ' {
      if i < |p| {
        assert x[i] == p[i];
      } else if i > |p| {
        assert x[i] == q[i - |p| - 1];
      }
    }
    forall i, j | 0 <= i < |x| && 0 <= j < |x| && j == i + 1 ensures !IsSpace(x[i]) || !IsSpace(x[j]) {
      if j < |p| {
        assert x[i] == p[i] && x[j] == p[j];
      } else if i > |p| {
        assert x[i] == q[i - |p| - 1] && x[j] == q[j - |p| - 1];
      } else if i == |p| {
        assert x[j] == q[0];
      } else {
        assert x[i] == p[|p| - 1];
      }
    }
  }

  /** `trimStart` removes exactly one leading space from a space and a trimmed word. */
  lemma TrimStartOneSpace(s: string)
    requires IsTrimmed(s) && s != []
    ensures TrimStart(" " + s) == s
  {
    assert (" " + s)[1..] == s;
    assert SpaceRun(" " + s, 1) == 0;
    assert SpaceRun(" " + s, 0) == 1;
  }

  /** A collapsed text starts with at most one space. */
  lemma TrimStartCollapsed(s: string)
    requires IsCollapsed(s)
    ensures TrimStart(s) == s || (s[0] == ' ' && s == " " + TrimStart(s))
  {
    if |s| > 0 && IsSpace(s[0]) {
      assert |s| > 1 ==> !IsSpace(s[1]);
      assert SpaceRun(s, 1) == 0;
      assert SpaceRun(s, 0) == 1;
      assert s == " " + s[1..];
    }
  }

  /** `split(sep)` with a one-character separator; never returns an empty list. */
  function Split(s: string, sep: char): (parts: seq<string>)
    ensures |parts| > 0
    ensures forall i | 0 <= i < |parts| :: sep !in parts[i]
    ensures Join(parts, sep) == s
  {
    if |s| == 0 then [[]]
    else
      var rest := Split(s[1..], sep);
      if s[0] == sep then
        var parts := [[]] + rest;
        assert parts[1..] == rest;
        parts
      else
        var parts := [[s[0]] + rest[0]] + rest[1..];
        assert |rest| > 1 ==> parts[1..] == rest[1..];
        assert forall i | 1 <= i < |parts| :: parts[i] == rest[i];
        parts
  }

  /** `join(sep)` on a non-empty list: the inverse of `Split`. */
  function Join(parts: seq<string>, sep: char): string
    requires |parts| > 0
  {
    if |parts| == 1 then parts[0] else parts[0] + [sep] + Join(parts[1..], sep)
  }

  /** Splitting a joined list gives the list back, when no part holds the separator. */
  lemma {:induction false} SplitJoin(parts: seq<string>, sep: char)
    requires |parts| > 0
    requires forall i | 0 <= i < |parts| :: sep !in parts[i]
    ensures Split(Join(parts, sep), sep) == parts
    decreases |parts|
  {
    if |parts| == 1 {
      SplitNoSeparator(parts[0], sep);
    } else {
      SplitJoin(parts[1..], sep);
      SplitAtFirst(parts[0], Join(parts[1..], sep), sep);
      assert parts == [parts[0]] + parts[1..];
    }
  }

  lemma {:induction false} SplitNoSeparator(s: string, sep: char)
    requires sep !in s
    ensures Split(s, sep) == [s]
    decreases |s|
  {
    if |s| > 0 {
      SplitNoSeparator(s[1..], sep);
      assert [s[0]] + s[1..] == s;
    }
  }

  lemma {:induction false} SplitAtFirst(p: string, q: string, sep: char)
    requires sep !in p
    ensures Split(p + [sep] + q, sep) == [p] + Split(q, sep)
    decreases |p|
  {
    var s := p + [sep] + q;
    if |p| == 0 {
      assert s[1..] == q;
    } else {
      assert s[1..] == p[1..] + [sep] + q;
      SplitAtFirst(p[1..], q, sep);
      assert [p[0]] + p[1..] == p;
    }
  }
}

=== FILE: order.dfy ===
/** The record shapes `src/index.ts` declares for a parsed order, and the
    failures `InvoiceParserError` reports while producing one. */
module Order {
  import opened Wrappers

  /** The schema version every parsed order is tagged with. */
  const SchemaVersion: string := "0.1.0"

  datatype Currency = USD

  /** A point in time as a JavaScript `Date` holds it: milliseconds since the epoch. */
  datatype Instant = Instant(millis: int)

  /** A negative line-item row: its label and its (negative) amount. */
  datatype Discount = Discount(description: string, amount: real)

  /** One purchased item. `seller` and `supplier` are the optional fields. */
  datatype ItemDetail = ItemDetail(
    description: string,
    seller: Option<string>,
    supplier: Option<string>,
    quantity: int,
    itemPrice: real)

  datatype OrderDetail = OrderDetail(
    schemaVersion: string,
    date: Instant,
    paymentMethod: string,
    currency: Currency,
    subtotal: real,
    tax: real,
    preTaxTotal: real,
    grandTotal: real,
    shippingAndHandling: real,
    discounts: seq<Discount>,
    items: seq<ItemDetail>,
    shippingAddress: seq<string>)

  /** One constructor per place the parser throws an `InvoiceParserError`;
      the fields are the values its message interpolates. */
  datatype ParseError =
    | AmountNotFound(field: string)
    | NegativeAmount(field: string, amount: real)
    | PreTaxTotalMismatch(expected: real, actual: real)
    | GrandTotalMismatch(expected: real, actual: real)
    | OrderDateElementNotFound
    | OrderDateTextNotFound
    | InvalidDate(text: string)
    | PaymentMethodElementNotFound
    | PaymentMethodTextNotFound
    | ShippingAddressElementNotFound
    | ShippingAddressTextNotFound
    | NoShippingAddressLines
    | ItemDescriptionNotFound
    | ItemPriceNotFound
    | ItemPriceNotParseable(text: string)
    | ItemQuantityNotParseable(text: string)
}

=== FILE: wrappers.dfy ===
/** Failure-compatible wrappers used throughout the model: `Option` for values
    that may be absent (a DOM element that was not found, a number that did not
    parse) and `Result` for computations that either succeed or throw. */
module Wrappers {

  datatype Option<+T> = None | Some(value: T) {

    /** The value, or `default` when there is none. */
    function GetOr(default: T): T {
      match this
      case Some(v) => v
      case None => default
    }
  }

  datatype Result<+T, +E> = Success(value: T) | Failure(error: E) {

    predicate IsFailure() {
      Failure?
    }

    function PropagateFailure<U>(): Result<U, E>
      requires Failure?
    {
      Failure(error)
    }

    function Extract(): T
      requires Success?
    {
      value
    }
  }

  /** The outcome of a check that either passes or throws. */
  datatype Outcome<+E> = Pass | Fail(error: E)
}
